=== FILE: README.md ===
# phaas-localservices-ui core, modelled in Dafny

phaas-localservices-ui is a desktop manager for a developer's local services.
It finds each `phaas-*-api` service checked out under a repos directory. It
derives each service's run state from its remembered process and its Docker
container, and publishes state changes to the UI. It starts services through
the `mage` build tool and stops them through Docker. Status refreshes run on a
process-wide job scheduler.

This project models that core as pure functions over immutable records. It
proves the rules the code follows.

- **Errors** (`errors.dfy`): Go error values as sentinels wrapped by `%w`
  contexts. `Is` is `errors.Is`. Also `Option`/`Result`/`Outcome`.
- **Os**, **Events** (`os.dfy`, `events.dfy`):
  - directory entries, process handles and the result of `os.FindProcess`;
  - two-element `filepath.Join`;
  - emitted events as records appended to a log.
- **JobScheduler** (`scheduler.dfy`): the named job registry, the strict
  "elapsed > period" due rule, a tick as a pure step, and the loop that does a
  tick in place.
- **RepoStatus**, **RepoFactory** (`repo_status.dfy`, `repo_factory.dfy`):
  - the state constants and `Status`;
  - the unanchored `phaas-.*-api` classification, decided by a single scan and
    proved equal to the regular expression's meaning;
  - the factory.
- **ApiRepo** (`api_repo.dfy`): the per-service reconciler.
  - the status decision table;
  - change-only notification;
  - the steady and the self-removing low-latency watchers;
  - the branches of `Start`, `Stop` and `mysqlUp`.
  A controller, the shared scheduler and the event log form the `World` an
  operation steps.
- **NameOrder**, **RepoBrowser** (`name_order.dfy`, `repo_browser.dfy`):
  - the controller store and how startup fills it;
  - the case-insensitive sorted listing;
  - the name-keyed operations the UI calls.
- **MageRunner** (`mage_runner.dfy`): the not-initialized guard, the shell
  command line, the environment and the start/wait behaviour.
- **DockerClient** (`docker_client.dfy`): client caching, container selection
  by exact name, and how "not found" is mapped.
- **AppSettings** (`settings.dfy`): what a save copies, keeps and announces,
  and how startup treats the settings file.

Every collaborator becomes a parameter carrying its result. That covers the
Docker SDK, `os.FindProcess`, `os.ReadDir`, `os.Mkdir`/`os.Create`, the
shell, JSON, file writes, `time.Now` and `rand.Int63n`.

Modelling choices:

- **Time** is an integer count of nanoseconds.
- **Start offset.** The random start offset of a job is a parameter `jitter`
  in `[0, period)`. The scheduler's comment speaks of a time between now and
  now minus the period. The code instead adds the offset to now. The model
  follows the code, so a job's first run comes between one and two periods
  after it is registered (`JobScheduler.FreshJobWaitsOnePeriod`).
- **Map iteration order** is a parameter `order` that lists the store's names
  once each.
- **ExecWait.** `mysqlUp` runs `mage mysqlup` through `ExecWait` as the code
  writes it, which always fails (see Findings). So, as modelled, `Start`
  launches nothing unless the database sidecar already runs
  (`ApiRepo.StartNeedsRunningSidecar`). The intended `ExecWait` and
  `mysqlUp` are modelled beside them.

## Model

| member | source | states |
|---|---|---|
| Errors.Wrap | repo/api_repo.go:88 | wrapping with `%w` keeps exactly the sentinels `errors.Is` finds in the cause, and yields a different error |
| Os.Join | repo_browser/repo_browser.go:93 | joining a clean directory and one component drops an empty element and gives a clean result: the root `/` keeps its one separator (`/name`), the current directory `.` disappears (`name`), and any other directory gets exactly one `/` before the name |
| Os.JoinEndsWithName | app/settings.go:36 | whatever form the directory takes, the joined path ends with the component it names |
| JobScheduler.New | scheduler/scheduler.go:15-19 | a new scheduler has no jobs and no running loop |
| JobScheduler.Start | scheduler/scheduler.go:21-26 | a call enters the ticker loop iff none runs yet; afterwards the loop is marked running and the jobs are untouched |
| JobScheduler.StartIsIdempotent | scheduler/scheduler.go:21-26 | a second Start finds the loop running, returns at once and changes nothing |
| JobScheduler.AddJob | scheduler/scheduler.go:48-61 | a registered name gives ErrJobAlreadyExists and changes nothing. A fresh name adds exactly that key with the given period and callback, a first lastRun in [now, now+period), and every other job unchanged. The offset needs a positive period |
| JobScheduler.RemoveJob | scheduler/scheduler.go:63-65 | removes exactly that key, keeps every other job, and is a no-op for an absent name |
| JobScheduler.DueNames | scheduler/scheduler.go:67-69 | a tick dispatches exactly the registered jobs whose elapsed time strictly exceeds their period |
| JobScheduler.Due | scheduler/scheduler.go:69 | a job is due exactly when the time since its last run strictly exceeds its period; at exactly one period it is not yet due |
| JobScheduler.Tick | scheduler/scheduler.go:67-74 | a tick keeps the same job names, periods and callbacks. It sets lastRun to now for exactly the dispatched jobs and leaves the others as they were |
| JobScheduler.RunJobs | scheduler/scheduler.go:67-74 | the in-place pass over the registry computes the same dispatched set and registry as the pure tick |
| JobScheduler.Run | scheduler/scheduler.go:30-37 | a run of successive ticks dispatches only registered names, keeps the same names registered, and keeps the loop's running flag |
| JobScheduler.FreshJobWaitsOnePeriod | scheduler/scheduler.go:58-69 | a fresh job is not due at any tick within one period of registration, and is due at every tick two periods after it |
| JobScheduler.SecondRegistrationKeepsFirst | scheduler/scheduler.go:48-52 | registering a name again fails and the job keeps the first registration's period, callback and lastRun |
| JobScheduler.NoRefireWithinPeriod | scheduler/scheduler.go:69-71 | a job dispatched at t is not dispatched again at any tick within one period of t, and is dispatched at every tick later than that |
| JobScheduler.RemovedJobNeverFires | scheduler/scheduler.go:63-74 | a removed job is dispatched by no tick of any later run of ticks, and stays unregistered |
| RepoStatus.StatesDistinct | repo/repo_controller.go:23-30 | the four state constants are pairwise distinct and none is the zero state "" |
| RepoStatus.AllStatesListsEachOnce | repo/repo_controller.go:32-40 | AllStates lists each named state exactly once and nothing else |
| RepoStatus.StatusEqualityIsStateEquality | repo/repo_controller.go:42-44 | two Status values are equal exactly when their states are, which is what change detection compares |
| RepoFactory.ScanFrom | repo/repo_controller.go:67 | the single left-to-right scan succeeds iff some "phaas-" is followed later, with no line break in between, by "-api" |
| RepoFactory.IsApiServiceName | repo/repo_controller.go:67-71 | a name is an API service name iff the unanchored pattern `phaas-.*-api` matches it |
| RepoFactory.ApiNamesAccepted | repo/repo_controller.go:67 | the pattern matches a bare service name, one embedded in a longer name, and one with an empty middle |
| RepoFactory.SharedSeparatorRejected | repo/repo_controller.go:67 | "phaas-api" does not match: the two dashes cannot be one |
| RepoFactory.UiNameRejected | repo/repo_controller.go:67-71 | a ui service name does not match, since the ui pattern is never consulted |
| RepoFactory.NewlineInterruptsMatch | repo/repo_controller.go:67 | a line break between the two parts prevents the match, because `.` excludes it |
| RepoFactory.BuildRepoController | repo/repo_controller.go:70-82 | a controller is built iff the name matches. It carries the given name, path and dir, no pid and the zero Status; other names give nil |
| RepoFactory.FirstRefreshAlwaysEmits | repo/repo_controller.go:70-82 | a freshly built controller's first successful refresh always emits on its channel, since its stored status is the zero Status |
| ApiRepo.StatusNotificationChannel | repo/api_repo.go:103-105 | the channel is "events-" + name + "-status" |
| ApiRepo.ChannelNamesAreDistinct | repo/api_repo.go:103-105 | different services publish on different channels |
| ApiRepo.StatusWatcherJob | repo/api_repo.go:108 | the steady watcher's job is named name + "-status-watcher" |
| ApiRepo.LowLatencyWatcherJob | repo/api_repo.go:123 | the low-latency watcher's job is named name + "-status-watcher-low-latency" |
| ApiRepo.WatcherJobsNeverCollide | repo/api_repo.go:107-124 | no service's steady watcher job name equals any service's low-latency watcher job name |
| ApiRepo.BasicDetailsOf | repo/api_repo.go:35-41 | the listed details are the controller's name and path, and its notification channel |
| ApiRepo.GetStatus | repo/api_repo.go:69-101 | the decision table. Container absent or without State gives starting if the pid resolved, else stopped. Running gives running; not running gives stopped. A container error gives an error and the zero Status. A failed pid lookup is swallowed and clears the pid; nothing else changes |
| ApiRepo.GetStatusNeverUnknown | repo/api_repo.go:90-100 | a successful status query never yields unknown or the zero state; it yields one of the named states |
| ApiRepo.RefreshStatus | repo/api_repo.go:140-157 | on success the fresh status is stored and emitted iff it differs from the stored one. On error nothing is stored or emitted. Only the pid can otherwise change |
| ApiRepo.RefreshTwiceEmitsAtMostOnce | repo/api_repo.go:140-157 | two refreshes that see the same signals emit at most one event in all, and the second emits none |
| ApiRepo.RegisterStatusWatcher | repo/api_repo.go:107-120 | always succeeds. A fresh registration adds exactly the 30-second steady watcher for this service; a duplicate leaves everything unchanged |
| ApiRepo.StartLowLatencyStatusWatcher | repo/api_repo.go:122-138 | afterwards the one-second watcher for this service is registered. A duplicate is ignored and other jobs are unchanged |
| ApiRepo.FireStatusWatcher | repo/api_repo.go:109-114 | a steady watcher firing is one refresh whose error is dropped; the scheduler is unchanged |
| ApiRepo.FireLowLatencyWatcher | repo/api_repo.go:124-133 | after its refresh, the low-latency job removes itself iff the stored status is stopped, whether or not the refresh failed; no other job changes |
| ApiRepo.LowLatencyWatcherStopsOnStopped | repo/api_repo.go:129-132 | a firing that observes a halted container, or an absent one with no live process, removes the low-latency job |
| ApiRepo.MysqlUp | repo/api_repo.go:228-248 | as written: a query error other than not-found aborts without running anything. A running sidecar is left alone. Otherwise `mage mysqlup` runs through the written ExecWait, whose failure is the result. So mysqlUp succeeds exactly when the sidecar already runs |
| ApiRepo.MysqlUpIntended | repo/api_repo.go:228-248 | as intended: the same branches, with `mage mysqlup` run by the corrected ExecWait, so a missing sidecar is brought up when the command starts and exits cleanly |
| ApiRepo.MysqlUpDiffersOnlyInMysqlup | repo/api_repo.go:236-245 | the written and intended mysqlUp take the same branches and agree whenever `mage mysqlup` is not run. When it runs a command that starts and exits cleanly, the intended one succeeds and the written one fails |
| ApiRepo.Start | repo/api_repo.go:159-206 | a mysqlUp error aborts first. A running service gives success with nothing changed. Every path that launches nothing leaves the world unchanged. `mage run` is launched iff every earlier step passed. A launch succeeds, leaves the low-latency watcher registered, emits at most once, and records the pid only from a non-nil handle |
| ApiRepo.StartNeedsRunningSidecar | repo/api_repo.go:159-165 | as the program is written, Start launches `mage run` only when the database sidecar already runs; otherwise it fails and changes nothing |
| ApiRepo.Stop | repo/api_repo.go:208-226 | an absent or halted container gives success with no stop request and the pid cleared. A kill failure is returned and keeps the pid. Every success clears the pid, and nothing but the pid changes |
| ApiRepo.StopAgreesWithStatus | repo/api_repo.go:208-226 | Stop asks Docker to stop the container exactly when GetStatus on the same container status reports it running; for every other reported state it succeeds at once and clears the pid |
| ApiRepo.NotFoundEscapeIsDead | repo/api_repo.go:167-171 | the container status these branches receive never fails with the not-found sentinel, so their not-found escape cannot be taken |
| NameOrder.LowerChar | repo_browser/repo_browser.go:110 | lower-casing maps exactly the ASCII capitals to their small letters |
| NameOrder.ToLower | repo_browser/repo_browser.go:110 | lower-casing a name keeps its length and lower-cases each character |
| NameOrder.Compare | repo_browser/repo_browser.go:110 | the comparison yields -1, 0 or 1, and 0 exactly for equal strings |
| NameOrder.CompareAntisymmetric | repo_browser/repo_browser.go:110 | swapping the operands negates the comparison |
| NameOrder.CompareTransitive | repo_browser/repo_browser.go:110 | "sorts no later than" is transitive |
| NameOrder.CompareLessIsLexLess | repo_browser/repo_browser.go:110 | the comparison answers -1 exactly when, after a common prefix, the first string ends while the second goes on, or has the smaller character at the first difference |
| NameOrder.CompareIsLexicographic | repo_browser/repo_browser.go:110 | the comparison is lexicographic order: -1 when the first string sorts strictly before the second, 0 when they are equal, and 1 when the second sorts strictly before the first |
| NameOrder.Insert | repo_browser/repo_browser.go:109-111 | inserting into a sorted listing keeps it sorted and adds exactly that entry |
| NameOrder.SortByName | repo_browser/repo_browser.go:109-111 | the sort yields a listing sorted by lower-cased name over every pair of entries, and is a permutation of its input |
| NameOrder.SortedArrangementIsUnique | repo_browser/repo_browser.go:109-111 | when distinct entries never share a lower-cased name, two sorted permutations of the same entries are equal |
| RepoBrowser.Push | repo_browser/repo_browser.go:20-25 | a push creates the map if it is nil and stores the controller under the name, replacing an old one. Every other entry is unchanged |
| RepoBrowser.Get | repo_browser/repo_browser.go:39-45 | a lookup succeeds iff the name is stored with a non-nil controller and returns it; otherwise ErrRepoNotFound |
| RepoBrowser.PushThenGet | repo_browser/repo_browser.go:20-45 | a lookup after a push returns the pushed controller, or not-found for a pushed nil. Other names are unaffected and the zero store finds nothing |
| RepoBrowser.Register | repo_browser/repo_browser.go:89-97 | one loop step pushes a fresh controller at root/name for a directory the factory accepts, and skips every other entry |
| RepoBrowser.RegisterAll | repo_browser/repo_browser.go:88-98 | the loop over the listing never drops a stored name, and a listing without an accepted directory leaves the store as it was |
| RepoBrowser.RegisterAllKeys | repo_browser/repo_browser.go:88-98 | after the loop the store holds exactly the names it held and the names of the accepted directories |
| RepoBrowser.RegisterAllKeepsOthers | repo_browser/repo_browser.go:88-98 | a stored name that no accepted directory carries keeps its controller |
| RepoBrowser.RegisterAllStores | repo_browser/repo_browser.go:92-97 | an accepted directory is stored under its name with a fresh controller whose path is root joined with the name |
| RepoBrowser.RegisterAllKeepsShape | repo_browser/repo_browser.go:92-97 | the loop stores each controller under its own name and never stores nil |
| RepoBrowser.InitRepos | repo_browser/repo_browser.go:82-100 | a read error is returned and leaves the store unchanged. Otherwise the result is the loop over the entries, and the store holds exactly its old names and those of the accepted directories |
| RepoBrowser.Startup | repo_browser/repo_browser.go:70-76 | startup panics iff the repos directory cannot be read. Otherwise the store holds exactly the accepted directories, each under its own name, none nil |
| RepoBrowser.DetailsInOrder | repo_browser/repo_browser.go:105-108 | the collected details are one per visited name, in visiting order |
| RepoBrowser.ListRepos | repo_browser/repo_browser.go:104-113 | the listing is sorted ascending by lower-cased name in lexicographic order (NameOrder.CompareIsLexicographic) and holds each stored controller's details once; every listed entry belongs to a stored controller |
| RepoBrowser.ListingIgnoresMapOrder | repo_browser/repo_browser.go:104-113 | when no two stored names differ only in case, the listing is the same whatever order the map range visits the names in |
| RepoBrowser.ListingShowsStoredNames | repo_browser/repo_browser.go:104-108 | the listing shows exactly the stored names |
| RepoBrowser.StartupListsAcceptedDirectories | repo_browser/repo_browser.go:82-113 | after startup the listing shows exactly the names of the directories the factory accepted |
| RepoBrowser.NotFound | repo_browser/repo_browser.go:116-119 | the not-found error of a name-keyed call still is ErrRepoNotFound under `errors.Is` |
| RepoBrowser.GetRepoStatus | repo_browser/repo_browser.go:115-125 | an unknown name gives the wrapped not-found error and changes nothing. A known one returns the controller's status or error, and stores the controller as the query left it |
| RepoBrowser.ReportedStatusIsNamed | repo_browser/repo_browser.go:115-125 | a status the browser reports is a named state other than unknown |
| RepoBrowser.StartRepo | repo_browser/repo_browser.go:127-137 | an unknown name gives the wrapped not-found error and changes nothing. A known one starts the stored controller, keeps its changes, and fails iff its start fails |
| RepoBrowser.StopRepo | repo_browser/repo_browser.go:139-149 | an unknown name gives the wrapped not-found error and changes nothing. A known one stops the stored controller, keeps its changes, and on success leaves it without a pid |
| RepoBrowser.GetRepoRepoStatusNotificationChannel | repo_browser/repo_browser.go:151-157 | an unknown name gives the wrapped not-found error; a known one gives the stored controller's channel |
| RepoBrowser.ChannelMatchesListing | repo_browser/repo_browser.go:151-157 | the channel handed out for a stored service is the one its listing entry advertises, "events-" + name + "-status" |
| RepoBrowser.RegisterRepoStatusWatcher | repo_browser/repo_browser.go:159-165 | an unknown name gives the wrapped not-found error and changes nothing. A known one succeeds with the steady watcher registered, no existing job changed, and the store unchanged |
| RepoBrowser.PushOwnNameKeepsShape | repo_browser/repo_browser.go:20-25 | pushing a controller under its own name keeps every controller under its own name, none nil |
| RepoBrowser.GetRepoStatusKeepsShape | repo_browser/repo_browser.go:115-125 | a status query keeps every controller stored under its own name |
| RepoBrowser.StartRepoKeepsShape | repo_browser/repo_browser.go:127-137 | a start keeps every controller stored under its own name |
| RepoBrowser.StopRepoKeepsShape | repo_browser/repo_browser.go:139-149 | a stop keeps every controller stored under its own name |
| MageRunner.Init | mage/magerunner.go:22-43 | the runner is set iff the shell init command succeeded; otherwise it stays as it was and an error is returned |
| MageRunner.UpperChar | mage/magerunner.go:84 | upper-casing maps exactly the ASCII small letters to their capitals |
| MageRunner.ToUpper | mage/magerunner.go:84 | upper-casing a key keeps its length and upper-cases each character |
| MageRunner.EnabledParams | mage/magerunner.go:82-83 | the kept overrides are exactly the enabled ones |
| MageRunner.OverrideEnv | mage/magerunner.go:80-87 | one entry "PHAAS_OVERRIDE_" + upper(key) + "=" + value per enabled override, in input order, and as many entries as enabled overrides |
| MageRunner.OverrideEnvSnoc | mage/magerunner.go:82-86 | an override added at the end adds its entry at the end iff it is enabled |
| MageRunner.DisabledOverrideAddsNothing | mage/magerunner.go:83 | a disabled override never reaches the environment |
| MageRunner.BuildEnvParams | mage/magerunner.go:80-87 | the loop over the overrides builds exactly the override entries |
| MageRunner.OverrideExample | mage/magerunner.go:84 | an enabled `foo=bar` gives "PHAAS_OVERRIDE_FOO=bar" whatever the key's case, and a disabled one gives nothing |
| MageRunner.JoinWords | mage/magerunner.go:75 | joining no words gives "" and one word gives that word |
| MageRunner.JoinIsFirstThenSpaced | mage/magerunner.go:75 | joining with single spaces is the first word followed by each other word after one space |
| MageRunner.CommandLine | mage/magerunner.go:75 | the shell command is "mage" followed by each command after one space |
| MageRunner.BuildCmd | mage/magerunner.go:71-89 | before Init: ErrNotInitialized. After it: `<shell> -c <command line>` in the service's directory, with the inherited environment, then the interactivity switch, then exactly the override entries |
| MageRunner.Exec | mage/magerunner.go:47-57 | before Init: an error that is ErrNotInitialized and nothing started. After it: success iff the process starts, returning its handle |
| MageRunner.StartCmd | mage/magerunner.go:64 | a command can be started once; starting it again is refused |
| MageRunner.RunCmd | mage/magerunner.go:68 | running a command starts it and then waits; an already started command fails |
| MageRunner.ExecWaitAsWritten | mage/magerunner.go:59-69 | the code as written: before Init, an error that is ErrNotInitialized |
| MageRunner.ExecWaitAsWrittenNeverSucceeds | mage/magerunner.go:64-68 | as written, ExecWait never returns success: the second start is always refused |
| MageRunner.ExecWait | mage/magerunner.go:59-69 | as intended: before Init, ErrNotInitialized; after it, success iff the command starts and exits cleanly |
| MageRunner.ExecWaitSucceedsWhenCommandDoes | mage/magerunner.go:59-69 | for a command that starts and exits cleanly, the intended ExecWait succeeds and the written one does not |
| DockerClient.DefaultClient | dockerclient/docker_client.go:17-27 | a cached client is returned as is. Otherwise a successful construction is cached and returned, and a failed one caches nothing and is an error |
| DockerClient.DefaultClientConstructsAtMostOnce | dockerclient/docker_client.go:17-27 | once a client is returned, every later call returns that client, whatever a new construction would give |
| DockerClient.FirstNamed | dockerclient/docker_client.go:42-46 | the position of the first listed container whose names include "/" + name exactly, or none when no container does |
| DockerClient.GetContainer | dockerclient/docker_client.go:31-48 | the first listed container carrying the exact name, or ErrNoContainerFound. Client and list errors are passed on, and not-found only when their cause is |
| DockerClient.GetStatus | dockerclient/docker_client.go:68-86 | no matching container gives (nil, nil); a match gives its inspection or the inspect error. Client and other list errors are errors, and never the not-found sentinel |
| DockerClient.StopContainer | dockerclient/docker_client.go:88-106 | a kill is sent iff a matching container exists. A missing container is a success without a kill. A sent kill's failure is the result |
| DockerClient.StopKillsWhatStatusReports | dockerclient/docker_client.go:68-106 | with the same client and listing, a kill is sent exactly when GetStatus reports a container, and without a kill the stop succeeds exactly when GetStatus does |
| AppSettings.SaveSettings | app/settings.go:85-100 | a save copies the repos dir, data dir and overrides, and keeps the shell paths and settings path, even when the write fails. It succeeds iff the write does, and emits repos-location-changed iff the repos dir changed and the write succeeded |
| AppSettings.GetEnvParamOverrides | app/settings.go:108-110 | returns the stored overrides as they are, so the runner sees exactly what the last save or load stored |
| AppSettings.SavedOverridesAreReadBack | app/settings.go:108-110 | the overrides a save stores are what GetEnvParamOverrides returns afterwards |
| AppSettings.SavingSameReposDirIsSilent | app/settings.go:86-98 | a save with an unchanged repos dir emits nothing |
| AppSettings.GetSettingsDir | app/settings.go:30-37 | the settings directory is the config directory joined with "phaas-localservices-manager", or an error when there is no config directory |
| AppSettings.Apply | app/settings.go:71 | decoding gives every field the document sets the document's value, and leaves every field it does not set, and the unexported settings path, as they were |
| AppSettings.ApplyIsIdempotent | app/settings.go:71 | decoding the same document into the settings twice gives what decoding it once gives |
| AppSettings.Startup | app/settings.go:39-79 | the settings path is located first. An empty or missing file leaves the fields unchanged. Startup succeeds iff no step other than an "exists" or "not exists" failure fails. A non-empty file that decodes replaces the fields it sets, and the repos dir changes only then |
| AppSettings.EmptySettingsFileKeepsOverrides | app/settings.go:63-69 | an empty settings file loads successfully and keeps the overrides and the repos location as they were |

## Left out

- Concurrency is not modelled. That covers the ticker loop of `Scheduler.Start`, context cancellation, the goroutine each dispatched job runs in, and the unsynchronised map accesses. A tick returns the names it dispatches, and the watcher callbacks are applied by the `Fire…` functions.
- Logging (`slog`) is dropped. It has no effect on results.
- `GetLastModifiedTime` and `GetActiveBranch` (directory mod-time and git HEAD) are not modelled. They only read foreign state.
- The shell init command's argument list and output buffer are not modelled. `Init` takes that command's outcome as a parameter.
- The data-directory and log-file paths `Start` builds are not modelled, nor the log writer handed to `mage`. The model keeps only the outcomes of the steps that use them.
- `Os.Join`: covers a clean directory (including `/` and `.`) joined with one path component that holds no `/` and is not `.` or `..`, which is what directory entries and the two file names are. Cleaning of other inputs (`..`, repeated or trailing separators) is not modelled.
- The `statusNotificationChannel` field of `apiController` is never set in the source and is not modelled. The channel is always computed from the name.
- The unused `uiRegex` is not modelled.
- The Docker SDK's container list filter is not modelled. The selection rule is applied to whatever list is passed in.
- JSON encoding and decoding are not modelled. A decoded document is a `SettingsPatch` of the fields it sets. A decode error is modelled as leaving the fields untouched; a partial update before a decode error is not modelled.
- `GetSettings` (a plain copy) and `writeToFile` are not modelled. The write's outcome is a parameter of `SaveSettings`.
- `ApiRepo.Start`, `ApiRepo.Stop`, `ApiRepo.MysqlUp`: require a present inspection to carry a State. The source dereferences it without a check and would panic.
- `ApiRepo.RegisterStatusWatcher`, `ApiRepo.StartLowLatencyStatusWatcher`: require the start offset in [0, period) when the job is new, for the same reason as `JobScheduler.AddJob`.
- `RepoBrowser.StartRepo`, `RepoBrowser.StopRepo`, `RepoBrowser.RegisterRepoStatusWatcher`: inherit those requirements from the controller operation they call, and only for a name that is stored.
- `RepoBrowser.ListRepos`: requires that no nil controller is stored. The source would panic calling a method on it, and startup never stores one (`RepoBrowser.Startup`).
- `JobScheduler.AddJob`: requires the start offset in [0, period) on the fresh-name path. `rand.Int63n` panics for a period that is not positive, and draws from that range otherwise.
- `MageRunner.ToUpper`, `NameOrder.ToLower`: handle ASCII letters only. Go's Unicode case mapping is not modelled.
- `NameOrder.SortByName`: keeps entries whose lower-cased names tie in input order. `slices.SortFunc` is not stable, so the contract promises only sortedness and a permutation.
- `DockerClient.GetStatus`: the failure contract does not promise an error when a list error itself wraps ErrNoContainerFound. The source would then report (nil, nil), and the SDK never produces such an error (`ApiRepo.NotFoundEscapeIsDead`).
- `MageRunner.Exec`: does not promise a non-nil handle after a successful start. `os/exec` guarantees one, but the model keeps the nil case that `Start` guards against.

## Findings

| source | as written | input that shows it | evidently intended | confidence | as-written member | corrected member |
|---|---|---|---|---|---|---|
| mage/magerunner.go:64-68 | `ExecWait` calls `cmd.Start()` and then `cmd.Run()` on the same `exec.Cmd`. `Run` starts the command again, and `os/exec` refuses a command already started | any call after a successful `Init` whose command starts: the second start fails with "exec: already started", so `mysqlUp` fails whenever the database sidecar is not already running | start the command once and wait for it (`cmd.Run()` alone, or `Start` then `Wait`) | high; not executed | MageRunner.ExecWaitAsWritten | MageRunner.ExecWait |

=== FILE: api_repo.dfy ===
/** The per-service reconciler of repo/api_repo.go: how a service's run state
    is derived from the remembered process id and the container inspection,
    when a refresh notifies, the two status watchers it registers with the
    scheduler, and the decision branches of Start, Stop and mysqlUp.

    Every collaborator call (os.FindProcess, dockerclient.GetStatus,
    dockerclient.StopContainer, os.Mkdir, os.Create, mage.Exec, mage.ExecWait)
    is replaced by its result, passed in. A controller, the shared scheduler
    and the event log together form the World an operation steps. */
module ApiRepo {
  import opened Errors
  import opened Os
  import opened RepoStatus
  import opened Events
  import JobScheduler
  import DockerClient
  import MageRunner

  /** apiController without its context and collaborator pointers. */
  datatype ApiController = ApiController(
    name: string,
    path: string,
    dir: DirEntry,
    startedPID: int,
    latestStatus: Status)

  /** The callback a watcher job runs, naming the controller it refreshes. */
  datatype Watcher = SteadyWatcher(repo: string) | LowLatencyWatcher(repo: string)

  datatype World = World(ctrl: ApiController, sched: JobScheduler.Scheduler<Watcher>, events: seq<Event>)

  /** What dockerclient.GetStatus returned: nil, an inspection, or an error. */
  type ContainerReport = Result<Option<DockerClient.Inspection>>

  /** The container is missing, or its inspection carries no State. */
  predicate ContainerAbsent(report: ContainerReport) {
    report.Success? && (report.value.None? || report.value.value.state.None?)
  }

  /** The container is inspected and its State says running / not running. */
  predicate ContainerRunning(report: ContainerReport) {
    report.Success? && report.value.Some? && report.value.value.state.Some? && report.value.value.state.value.running
  }

  predicate ContainerHalted(report: ContainerReport) {
    report.Success? && report.value.Some? && report.value.value.state.Some? && !report.value.value.state.value.running
  }

  /** Start, Stop and mysqlUp read status.State.Running without checking State
      for nil: a present inspection without State would make them panic. */
  predicate Dereferenceable(report: ContainerReport) {
    report.Success? && report.value.Some? ==> report.value.value.state.Some?
  }

  const StatusWatcherPeriod: int := 30 * JobScheduler.Second
  const LowLatencyWatcherPeriod: int := 1 * JobScheduler.Second

  /** The notification channel of a service: "events-<name>-status". */
  function StatusNotificationChannel(name: string): (r: string)
    ensures |r| == |name| + 14
    ensures r[..7] == "events-" && r[7..|r| - 7] == name && r[|r| - 7..] == "-status"
  {
    "events-" + name + "-status"
  }

  /** Different services publish on different channels. */
  lemma ChannelNamesAreDistinct(a: string, b: string)
    requires a != b
    ensures StatusNotificationChannel(a) != StatusNotificationChannel(b)
  {
  }

  /** "<name>-status-watcher". */
  function StatusWatcherJob(name: string): (r: string)
    ensures |r| == |name| + 15 && r[..|name|] == name && r[|name|..] == "-status-watcher"
  {
    name + "-status-watcher"
  }

  /** "<name>-status-watcher-low-latency". */
  function LowLatencyWatcherJob(name: string): (r: string)
    ensures |r| == |name| + 27 && r[..|name|] == name && r[|name|..] == "-status-watcher-low-latency"
  {
    name + "-status-watcher-low-latency"
  }

  /** No steady watcher's job name is ever a low-latency watcher's, for any
      two services: the names end in different characters. */
  lemma WatcherJobsNeverCollide(a: string, b: string)
    ensures StatusWatcherJob(a) != LowLatencyWatcherJob(b)
  {
    var s, l := StatusWatcherJob(a), LowLatencyWatcherJob(b);
    assert s[|s| - 1] == 'r';
    assert l[|l| - 1] == 'y';
  }

  /** GetBasicDetails. */
  function BasicDetailsOf(c: ApiController): (d: BasicDetails)
    ensures d.name == c.name && d.path == c.path
    ensures d.statusNotificationChannel == StatusNotificationChannel(c.name)
  {
    BasicDetails(c.name, c.path, StatusNotificationChannel(c.name))
  }

  /** GetStatus's answer and the controller after it: a failed process lookup
      clears the remembered pid even though the call is a query. */
  datatype Observation = Observation(ctrl: ApiController, status: Status, out: Outcome)

  /** The remembered process resolved to a live handle. */
  predicate ProcessResolved(c: ApiController, lookup: ProcessLookup) {
    c.startedPID != 0 && lookup.Resolved? && lookup.handle.Some?
  }

  /** GetStatus: `lookup` is what os.FindProcess(startedPID) returns (it is
      consulted only when a pid is remembered) and `report` what
      dockerclient.GetStatus returns for the service's name. */
  function GetStatus(c: ApiController, lookup: ProcessLookup, report: ContainerReport): (r: Observation)
    // the process lookup is advisory: a failure is swallowed and clears the pid
    ensures r.ctrl == c.(startedPID := r.ctrl.startedPID)
    ensures r.ctrl.startedPID == (if c.startedPID != 0 && lookup.LookupFailed? then 0 else c.startedPID)
    // container errors are not swallowed, and come with the zero Status
    ensures report.Failure? <==> r.out.Err?
    ensures report.Failure? ==> r.status == ZeroStatus
    // the decision table
    ensures ContainerAbsent(report) && ProcessResolved(c, lookup) ==> r.status.state == StateStarting
    ensures ContainerAbsent(report) && !ProcessResolved(c, lookup) ==> r.status.state == StateStopped
    ensures ContainerRunning(report) ==> r.status.state == StateRunning
    ensures ContainerHalted(report) ==> r.status.state == StateStopped
  {
    var pid := if c.startedPID != 0 && lookup.LookupFailed? then 0 else c.startedPID;
    var foundProcess := ProcessResolved(c, lookup);
    var after := c.(startedPID := pid);
    match report
    case Failure(e) => Observation(after, ZeroStatus, Err(Wrap("error getting docker container status", e)))
    case Success(None) => Observation(after, Status(if foundProcess then StateStarting else StateStopped), Ok)
    case Success(Some(inspection)) =>
      match inspection.state
      case None => Observation(after, Status(if foundProcess then StateStarting else StateStopped), Ok)
      case Some(st) => Observation(after, Status(if st.running then StateRunning else StateStopped), Ok)
  }

  /** GetStatus never reports `unknown`, nor the zero state, on success. */
  lemma GetStatusNeverUnknown(c: ApiController, lookup: ProcessLookup, report: ContainerReport)
    requires GetStatus(c, lookup, report).out.Ok?
    ensures var s := GetStatus(c, lookup, report).status.state;
            s != StateUnknown && s != "" && IsNamedState(s)
  {
  }

  /** The result of refreshStatus and the world after it. */
  datatype Refreshed = Refreshed(world: World, out: Outcome)

  /** refreshStatus: on success stores the fresh status and emits it on the
      service's channel exactly when it differs from the stored one; on error
      it neither stores nor emits. */
  function RefreshStatus(w: World, lookup: ProcessLookup, report: ContainerReport): (r: Refreshed)
    ensures r.world.sched == w.sched
    ensures r.world.ctrl.startedPID == GetStatus(w.ctrl, lookup, report).ctrl.startedPID
    ensures r.world.ctrl.(startedPID := w.ctrl.startedPID, latestStatus := w.ctrl.latestStatus) == w.ctrl
    ensures r.out.Err? <==> report.Failure?
    ensures r.out.Err? ==> r.world.ctrl.latestStatus == w.ctrl.latestStatus && r.world.events == w.events
    ensures r.out.Ok? ==> r.world.ctrl.latestStatus == GetStatus(w.ctrl, lookup, report).status
    ensures r.out.Ok? ==>
      if r.world.ctrl.latestStatus != w.ctrl.latestStatus
      then r.world.events == w.events + [Event(StatusNotificationChannel(w.ctrl.name), [r.world.ctrl.latestStatus])]
      else r.world.events == w.events
  {
    var o := GetStatus(w.ctrl, lookup, report);
    match o.out
    case Err(e) => Refreshed(w.(ctrl := o.ctrl), Err(Wrap("error getting status for repo", e)))
    case Ok =>
      var changed := w.ctrl.latestStatus != o.status;
      var w1 := w.(ctrl := o.ctrl.(latestStatus := o.status));
      if changed then
        Refreshed(w1.(events := w.events + [Event(StatusNotificationChannel(w.ctrl.name), [o.status])]), Ok)
      else Refreshed(w1, Ok)
  }

  /** Two refreshes that see the same signals emit at most once between them,
      and the second emits nothing. */
  lemma RefreshTwiceEmitsAtMostOnce(w: World, lookup: ProcessLookup, report: ContainerReport)
    ensures var w1 := RefreshStatus(w, lookup, report).world;
            var w2 := RefreshStatus(w1, lookup, report).world;
            && w2.events == w1.events
            && |w1.events| <= |w.events| + 1
  {
    var o := GetStatus(w.ctrl, lookup, report);
    var w1 := RefreshStatus(w, lookup, report).world;
    var o2 := GetStatus(w1.ctrl, lookup, report);
    if report.Success? {
      // the second lookup sees either the same pid or none; it derives the same state
      assert ProcessResolved(w1.ctrl, lookup) == ProcessResolved(w.ctrl, lookup);
      assert o2.status == o.status;
    }
  }

  /** RegisterStatusWatcher: ensures the steady 30-second watcher exists. A
      duplicate registration counts as success and changes nothing. */
  function RegisterStatusWatcher(w: World, now: int, jitter: int): (r: Refreshed)
    requires StatusWatcherJob(w.ctrl.name) !in w.sched.jobs ==> 0 <= jitter < StatusWatcherPeriod
    ensures r.out == Ok
    ensures r.world.ctrl == w.ctrl && r.world.events == w.events
    ensures StatusWatcherJob(w.ctrl.name) in w.sched.jobs ==> r.world == w
    ensures StatusWatcherJob(w.ctrl.name) !in w.sched.jobs ==>
      && r.world.sched.jobs.Keys == w.sched.jobs.Keys + {StatusWatcherJob(w.ctrl.name)}
      && r.world.sched.jobs[StatusWatcherJob(w.ctrl.name)].period == StatusWatcherPeriod
      && r.world.sched.jobs[StatusWatcherJob(w.ctrl.name)].fn == SteadyWatcher(w.ctrl.name)
    ensures forall n :: n in w.sched.jobs ==> n in r.world.sched.jobs && r.world.sched.jobs[n] == w.sched.jobs[n]
  {
    var (s, err) := JobScheduler.AddJob(w.sched, StatusWatcherJob(w.ctrl.name), StatusWatcherPeriod, SteadyWatcher(w.ctrl.name), now, jitter);
    match err
    case Err(e) =>
      if Is(e, JobAlreadyExists) then Refreshed(w.(sched := s), Ok)
      else Refreshed(w.(sched := s), Err(Wrap("error adding status watcher job", e)))
    case Ok => Refreshed(w.(sched := s), Ok)
  }

  /** startLowLatencyStatusWatcher: ensures the one-second watcher exists; a
      duplicate is ignored. */
  function StartLowLatencyStatusWatcher(w: World, now: int, jitter: int): (r: World)
    requires LowLatencyWatcherJob(w.ctrl.name) !in w.sched.jobs ==> 0 <= jitter < LowLatencyWatcherPeriod
    ensures r.ctrl == w.ctrl && r.events == w.events
    ensures LowLatencyWatcherJob(w.ctrl.name) in r.sched.jobs
    ensures LowLatencyWatcherJob(w.ctrl.name) in w.sched.jobs ==> r == w
    ensures LowLatencyWatcherJob(w.ctrl.name) !in w.sched.jobs ==>
      && r.sched.jobs.Keys == w.sched.jobs.Keys + {LowLatencyWatcherJob(w.ctrl.name)}
      && r.sched.jobs[LowLatencyWatcherJob(w.ctrl.name)].period == LowLatencyWatcherPeriod
      && r.sched.jobs[LowLatencyWatcherJob(w.ctrl.name)].fn == LowLatencyWatcher(w.ctrl.name)
    ensures forall n :: n in w.sched.jobs ==> n in r.sched.jobs && r.sched.jobs[n] == w.sched.jobs[n]
  {
    var (s, _) := JobScheduler.AddJob(w.sched, LowLatencyWatcherJob(w.ctrl.name), LowLatencyWatcherPeriod,
                         LowLatencyWatcher(w.ctrl.name), now, jitter);
    w.(sched := s)
  }

  /** One firing of the steady watcher: a refresh, errors logged and dropped. */
  function FireStatusWatcher(w: World, lookup: ProcessLookup, report: ContainerReport): (r: World)
    ensures r.sched == w.sched
    ensures r.ctrl == RefreshStatus(w, lookup, report).world.ctrl
    ensures r.events == RefreshStatus(w, lookup, report).world.events
    ensures report.Success? ==> r.ctrl.latestStatus == GetStatus(w.ctrl, lookup, report).status
    ensures report.Failure? ==> r.ctrl.latestStatus == w.ctrl.latestStatus && r.events == w.events
  {
    RefreshStatus(w, lookup, report).world
  }

  /** One firing of the low-latency watcher: a refresh, then the job removes
      itself exactly when the stored status is `stopped` afterwards (whether
      or not the refresh succeeded). */
  function FireLowLatencyWatcher(w: World, lookup: ProcessLookup, report: ContainerReport): (r: World)
    ensures var job := LowLatencyWatcherJob(w.ctrl.name);
            && (job in r.sched.jobs <==> job in w.sched.jobs && r.ctrl.latestStatus.state != StateStopped)
            && (forall n :: n != job ==> (n in r.sched.jobs <==> n in w.sched.jobs))
            && (forall n :: n in r.sched.jobs ==> r.sched.jobs[n] == w.sched.jobs[n])
    ensures r.ctrl == RefreshStatus(w, lookup, report).world.ctrl
    ensures r.events == RefreshStatus(w, lookup, report).world.events
  {
    var w1 := RefreshStatus(w, lookup, report).world;
    if w1.ctrl.latestStatus.state == StateStopped then
      w1.(sched := JobScheduler.RemoveJob(w1.sched, LowLatencyWatcherJob(w.ctrl.name)))
    else w1
  }

  /** A low-latency watcher that observes a stopped container removes itself. */
  lemma LowLatencyWatcherStopsOnStopped(w: World, lookup: ProcessLookup, report: ContainerReport)
    requires ContainerHalted(report) || (ContainerAbsent(report) && !ProcessResolved(w.ctrl, lookup))
    ensures LowLatencyWatcherJob(w.ctrl.name) !in FireLowLatencyWatcher(w, lookup, report).sched.jobs
  {
  }

  /** The result of mysqlUp and whether it ran `mage mysqlup`. */
  datatype MysqlReply = MysqlReply(out: Outcome, ranMysqlUp: bool)

  /** The branches of mysqlUp around its one call of mage.ExecWait: `report`
      is the status of "<name>-mysql" and `execWait` what ExecWait returns
      for `mage mysqlup`, which is consulted only when the sidecar must be
      brought up. */
  function MysqlUpWith(report: ContainerReport, execWait: Outcome): MysqlReply
    requires Dereferenceable(report)
  {
    if report.Failure? && !Is(report.error, NoContainerFound) then
      MysqlReply(Err(Wrap("error getting repo status", report.error)), false)
    else if report.Success? && report.value.Some? && report.value.value.state.value.running then
      MysqlReply(Ok, false)
    else
      match execWait
      case Err(e) => MysqlReply(Err(Wrap("failed to start mysql", e)), true)
      case Ok => MysqlReply(Ok, true)
  }

  /** mysqlUp as the program runs it: a query error other than not-found
      aborts; a running sidecar is left alone; otherwise `mage mysqlup` is run
      through mage.ExecWait as written (`runner`, `spawn` and `wait` are its
      inputs), whose second start of the same command is always refused. So
      mysqlUp succeeds only when the sidecar already runs. */
  function MysqlUp(runner: MageRunner.Runner, report: ContainerReport, spawn: Outcome, wait: Outcome): (r: MysqlReply)
    requires Dereferenceable(report)
    ensures report.Failure? && !Is(report.error, NoContainerFound) ==> r.out.Err? && !r.ranMysqlUp
    ensures ContainerRunning(report) ==> r == MysqlReply(Ok, false)
    ensures r.ranMysqlUp <==> !ContainerRunning(report) && (report.Success? || Is(report.error, NoContainerFound))
    ensures r.ranMysqlUp ==> (r.out.Ok? <==> MageRunner.ExecWaitAsWritten(runner, spawn, wait).Ok?)
    ensures r.out.Ok? <==> ContainerRunning(report)
  {
    MageRunner.ExecWaitAsWrittenNeverSucceeds(runner, spawn, wait);
    MysqlUpWith(report, MageRunner.ExecWaitAsWritten(runner, spawn, wait))
  }

  /** mysqlUp as intended, with mage.ExecWait starting `mage mysqlup` once
      and waiting for it: the sidecar is brought up when the command starts
      and exits cleanly. */
  function MysqlUpIntended(runner: MageRunner.Runner, report: ContainerReport, spawn: Outcome, wait: Outcome): (r: MysqlReply)
    requires Dereferenceable(report)
    ensures r.ranMysqlUp <==> !ContainerRunning(report) && (report.Success? || Is(report.error, NoContainerFound))
    ensures r.ranMysqlUp ==> (r.out.Ok? <==> MageRunner.ExecWait(runner, spawn, wait).Ok?)
    ensures !r.ranMysqlUp ==> (r.out.Ok? <==> ContainerRunning(report))
  {
    MysqlUpWith(report, MageRunner.ExecWait(runner, spawn, wait))
  }

  /** The written and the intended mysqlUp take the same branches and differ
      only in the outcome of `mage mysqlup`: where the sidecar must be brought
      up by a command that starts and exits cleanly, the intended one
      succeeds and the written one fails. */
  lemma MysqlUpDiffersOnlyInMysqlup(runner: MageRunner.Runner, report: ContainerReport, spawn: Outcome, wait: Outcome)
    requires Dereferenceable(report)
    ensures MysqlUp(runner, report, spawn, wait).ranMysqlUp == MysqlUpIntended(runner, report, spawn, wait).ranMysqlUp
    ensures !MysqlUp(runner, report, spawn, wait).ranMysqlUp ==>
      MysqlUp(runner, report, spawn, wait) == MysqlUpIntended(runner, report, spawn, wait)
    ensures MysqlUp(runner, report, spawn, wait).ranMysqlUp && runner.Initialized? && spawn.Ok? && wait.Ok? ==>
      MysqlUp(runner, report, spawn, wait).out.Err? && MysqlUpIntended(runner, report, spawn, wait).out.Ok?
  {
    if spawn.Ok? && wait.Ok? {
      MageRunner.ExecWaitSucceedsWhenCommandDoes(spawn, wait);
    }
  }

  /** The collaborator results Start sees, in the order it asks for them. */
  datatype StartInputs = StartInputs(
    runner: MageRunner.Runner,
    mysqlReport: ContainerReport,        // status of "<name>-mysql"
    mysqlSpawn: Outcome,                 // starting `mage mysqlup`
    mysqlWait: Outcome,                  // waiting for it
    report: ContainerReport,             // status of the service's container
    mkdir: Outcome,                      // os.Mkdir of the data directory
    createLog: Outcome,                  // os.Create of the log file
    spawn: Result<Option<Process>>,      // starting `mage run`
    lookup: ProcessLookup,               // the refresh's process lookup
    refreshReport: ContainerReport,      // the refresh's container status
    now: int,                            // clock when the watcher is added
    jitter: int)                         // its random start offset

  /** The result of Start and whether it launched `mage run`. */
  datatype Started = Started(world: World, out: Outcome, launched: bool)

  /** Start: brings the database sidecar up, returns early when the service
      already runs, and otherwise launches `mage run` in the background,
      remembers its pid, refreshes once and adds the low-latency watcher. */
  function Start(w: World, io: StartInputs): (r: Started)
    requires Dereferenceable(io.mysqlReport) && Dereferenceable(io.report)
    requires LowLatencyWatcherJob(w.ctrl.name) !in w.sched.jobs ==> 0 <= io.jitter < LowLatencyWatcherPeriod
    // a mysqlUp failure aborts before anything else happens
    ensures MysqlUp(io.runner, io.mysqlReport, io.mysqlSpawn, io.mysqlWait).out.Err? ==>
      r.out.Err? && !r.launched && r.world == w
    // an already running service: success, nothing launched, nothing changed
    ensures MysqlUp(io.runner, io.mysqlReport, io.mysqlSpawn, io.mysqlWait).out.Ok? && ContainerRunning(io.report) ==>
      r == Started(w, Ok, false)
    // every path that does not launch leaves the world as it was
    ensures !r.launched ==> r.world == w
    ensures r.out.Err? ==> !r.launched
    ensures r.launched <==>
      && MysqlUp(io.runner, io.mysqlReport, io.mysqlSpawn, io.mysqlWait).out.Ok?
      && (io.report.Success? || Is(io.report.error, NoContainerFound))
      && !ContainerRunning(io.report)
      && (io.mkdir.Ok? || Is(io.mkdir.error, Exist))
      && io.createLog.Ok?
      && MageRunner.Exec(io.runner, io.spawn).Success?
    // a launch succeeds and leaves the low-latency watcher registered
    ensures r.launched ==> r.out == Ok && LowLatencyWatcherJob(w.ctrl.name) in r.world.sched.jobs
    // the pid is taken from a non-nil handle; a nil handle keeps the old one
    ensures r.launched && io.spawn.value.Some? && io.spawn.value.value.pid != 0 && io.lookup.Resolved? ==>
      r.world.ctrl.startedPID == io.spawn.value.value.pid
    ensures r.launched && io.spawn.value.None? ==>
      r.world.ctrl.startedPID == GetStatus(w.ctrl, io.lookup, io.refreshReport).ctrl.startedPID
    ensures r.launched ==> |w.events| <= |r.world.events| <= |w.events| + 1
  {
    var mysql := MysqlUp(io.runner, io.mysqlReport, io.mysqlSpawn, io.mysqlWait);
    if mysql.out.Err? then Started(w, mysql.out, false)
    else if io.report.Failure? && !Is(io.report.error, NoContainerFound) then
      Started(w, Err(Wrap("error getting repo status", io.report.error)), false)
    else if io.report.Success? && io.report.value.Some? && io.report.value.value.state.value.running then
      Started(w, Ok, false)
    else if io.mkdir.Err? && !Is(io.mkdir.error, Exist) then
      Started(w, Err(Wrap("failed to create data dir", io.mkdir.error)), false)
    else if io.createLog.Err? then
      Started(w, Err(Wrap("failed to open log file", io.createLog.error)), false)
    else
      match MageRunner.Exec(io.runner, io.spawn)
      case Failure(e) => Started(w, Err(Wrap("failed to start repo", e)), false)
      case Success(proc) =>
        var pid := if proc.Some? then proc.value.pid else w.ctrl.startedPID;
        var w1 := w.(ctrl := w.ctrl.(startedPID := pid));
        var w2 := RefreshStatus(w1, io.lookup, io.refreshReport).world;
        Started(StartLowLatencyStatusWatcher(w2, io.now, io.jitter), Ok, true)
  }

  /** As the program is written, Start launches nothing unless the database
      sidecar already runs: otherwise mysqlUp fails, and Start returns its
      error before touching anything. */
  lemma StartNeedsRunningSidecar(w: World, io: StartInputs)
    requires Dereferenceable(io.mysqlReport) && Dereferenceable(io.report)
    requires LowLatencyWatcherJob(w.ctrl.name) !in w.sched.jobs ==> 0 <= io.jitter < LowLatencyWatcherPeriod
    ensures Start(w, io).launched ==> ContainerRunning(io.mysqlReport)
    ensures !ContainerRunning(io.mysqlReport) ==> Start(w, io).out.Err? && Start(w, io).world == w
  {
    var m := MysqlUp(io.runner, io.mysqlReport, io.mysqlSpawn, io.mysqlWait);
    assert m.out.Ok? <==> ContainerRunning(io.mysqlReport);
  }

  /** The result of Stop and whether it asked Docker to stop the container. */
  datatype Stopped = Stopped(ctrl: ApiController, out: Outcome, stopRequested: bool)

  /** Stop: `report` is the service's container status and `stop` what
      dockerclient.StopContainer returns. A missing or halted container is
      already stopped; otherwise the stop's failure is returned and leaves the
      pid alone. Every success forgets the pid. */
  function Stop(c: ApiController, report: ContainerReport, stop: Outcome): (r: Stopped)
    requires Dereferenceable(report)
    ensures report.Failure? && !Is(report.error, NoContainerFound) ==> r == Stopped(c, r.out, false) && r.out.Err?
    ensures (report.Success? || Is(report.error, NoContainerFound)) && !ContainerRunning(report) ==>
      r == Stopped(c.(startedPID := 0), Ok, false)
    ensures r.stopRequested <==> ContainerRunning(report)
    ensures r.stopRequested && stop.Err? ==> r.out.Err? && r.ctrl == c
    ensures r.stopRequested && stop.Ok? ==> r == Stopped(c.(startedPID := 0), Ok, true)
    ensures r.out.Ok? ==> r.ctrl.startedPID == 0
    ensures r.ctrl.(startedPID := c.startedPID) == c
  {
    if report.Failure? && !Is(report.error, NoContainerFound) then
      Stopped(c, Err(Wrap("error getting repo status", report.error)), false)
    else if report.Failure? || report.value.None? || !report.value.value.state.value.running then
      Stopped(c.(startedPID := 0), Ok, false)
    else
      match stop
      case Err(e) => Stopped(c, Err(Wrap("error stopping repo", e)), true)
      case Ok => Stopped(c.(startedPID := 0), Ok, true)
  }

  /** Stop asks Docker to stop the container exactly when GetStatus, on the
      same container status, reports it running; whenever GetStatus reports
      any other state, Stop succeeds at once and forgets the pid. */
  lemma StopAgreesWithStatus(c: ApiController, lookup: ProcessLookup, report: ContainerReport, stop: Outcome)
    requires Dereferenceable(report)
    ensures var o := GetStatus(c, lookup, report);
            Stop(c, report, stop).stopRequested <==> o.out.Ok? && o.status.state == StateRunning
    ensures var o := GetStatus(c, lookup, report);
            o.out.Ok? && o.status.state != StateRunning ==> Stop(c, report, stop) == Stopped(c.(startedPID := 0), Ok, false)
  {
  }

  /** The container status Start, Stop and mysqlUp receive comes from
      dockerclient.GetStatus, which never fails with ErrNoContainerFound: the
      not-found escape in those three branches cannot be taken. */
  lemma NotFoundEscapeIsDead(client: Result<DockerClient.Client>, listed: Result<seq<DockerClient.ContainerSummary>>,
                             inspected: Result<DockerClient.Inspection>, name: string)
    requires DockerClient.SdkErrors(client, listed, inspected)
    ensures var report := DockerClient.GetStatus(client, listed, inspected, name);
            report.Failure? ==> !Is(report.error, NoContainerFound)
  {
  }
}

=== FILE: docker_client.dfy ===
/** The container lookups of dockerclient/docker_client.go. The Docker SDK
    calls (client construction, ContainerList, ContainerInspect,
    ContainerKill) are collaborators: their results are parameters. */
module DockerClient {
  import opened Errors

  /** An opaque handle to a constructed Docker SDK client. */
  datatype Client = Client(handle: nat)

  /** container.Summary, reduced to what the lookup reads. */
  datatype ContainerSummary = ContainerSummary(id: string, names: seq<string>)

  /** container.State, reduced to the Running flag. */
  datatype ContainerState = ContainerState(running: bool)

  /** container.InspectResponse: its State pointer may be nil. */
  datatype Inspection = Inspection(state: Option<ContainerState>)

  /** DefaultClient: constructs the client only when none is cached yet and
      caches it on success. `construct` is what NewClientWithOpts would
      return; it is ignored once a client is cached. */
  function DefaultClient(cache: Option<Client>, construct: Result<Client>): (r: (Option<Client>, Result<Client>))
    ensures cache.Some? ==> r.0 == cache && r.1 == Success(cache.value)
    ensures cache.None? && construct.Success? ==> r.0 == Some(construct.value) && r.1 == construct
    ensures cache.None? && construct.Failure? ==> r.0 == None && r.1.Failure?
  {
    match cache
    case Some(c) => (cache, Success(c))
    case None =>
      match construct
      case Failure(e) => (None, Failure(Wrap("failed to create docker client", e)))
      case Success(c) => (Some(c), Success(c))
  }

  /** Once DefaultClient has returned a client, every later call returns that
      same client whatever a fresh construction would have produced. */
  lemma DefaultClientConstructsAtMostOnce(cache: Option<Client>, first: Result<Client>, second: Result<Client>)
    requires DefaultClient(cache, first).1.Success?
    ensures var (cache1, r1) := DefaultClient(cache, first);
            DefaultClient(cache1, second) == (cache1, r1)
  {
  }

  /** A container carries the name `"/" + name` exactly (slices.Contains). */
  predicate HasName(c: ContainerSummary, name: string) {
    "/" + name in c.names
  }

  /** The position of the first container in list order carrying the name. */
  function FirstNamed(containers: seq<ContainerSummary>, name: string): (r: Option<nat>)
    ensures r.Some? ==> r.value < |containers| && HasName(containers[r.value], name)
    ensures r.Some? ==> forall k :: 0 <= k < r.value ==> !HasName(containers[k], name)
    ensures r.None? ==> forall k :: 0 <= k < |containers| ==> !HasName(containers[k], name)
  {
    if containers == [] then None
    else if HasName(containers[0], name) then Some(0)
    else match FirstNamed(containers[1..], name)
      case None => None
      case Some(i) => Some(i + 1)
  }

  /** GetContainer: the first listed container named `"/" + name`, or
      ErrNoContainerFound. `client` is DefaultClient's result and `listed`
      ContainerList's. */
  function GetContainer(client: Result<Client>, listed: Result<seq<ContainerSummary>>, name: string)
    : (r: Result<ContainerSummary>)
    ensures client.Failure? ==> r.Failure? && (Is(r.error, NoContainerFound) <==> Is(client.error, NoContainerFound))
    ensures client.Success? && listed.Success? ==>
      match FirstNamed(listed.value, name)
      case Some(i) => r == Success(listed.value[i])
      case None => r == Failure(Sentinel(NoContainerFound))
    ensures r.Success? ==> listed.Success? && r.value in listed.value && HasName(r.value, name)
    ensures client.Success? && listed.Failure? ==> r.Failure? && (Is(r.error, NoContainerFound) <==> Is(listed.error, NoContainerFound))
  {
    match client
    case Failure(e) => Failure(Wrap("failed to get docker client", e))
    case Success(_) =>
      match listed
      case Failure(e) => Failure(Wrap("failed to list containers", e))
      case Success(containers) =>
        match FirstNamed(containers, name)
        case Some(i) => Success(containers[i])
        case None => Failure(Sentinel(NoContainerFound))
  }

  /** None of the SDK's own failures is the package's not-found sentinel. */
  predicate SdkErrors(client: Result<Client>, listed: Result<seq<ContainerSummary>>, inspected: Result<Inspection>) {
    && (client.Failure? ==> !Is(client.error, NoContainerFound))
    && (listed.Failure? ==> !Is(listed.error, NoContainerFound))
    && (inspected.Failure? ==> !Is(inspected.error, NoContainerFound))
  }

  /** GetStatus: the inspection of the named container; "not found" becomes
      (nil, nil) and every other failure an error. `inspected` is what
      ContainerInspect returns for the selected container. The client is
      fetched twice in the source, but the second fetch returns the cached
      handle of the first (DefaultClientConstructsAtMostOnce), so one input
      serves both. */
  function GetStatus(client: Result<Client>, listed: Result<seq<ContainerSummary>>,
                     inspected: Result<Inspection>, name: string): (r: Result<Option<Inspection>>)
    ensures client.Success? && listed.Success? && FirstNamed(listed.value, name).None? ==> r == Success(None)
    ensures client.Success? && listed.Success? && FirstNamed(listed.value, name).Some? ==>
      (r.Success? <==> inspected.Success?) && (inspected.Success? ==> r == Success(Some(inspected.value)))
    ensures client.Failure? ==> r.Failure?
    ensures listed.Failure? && !Is(listed.error, NoContainerFound) ==> r.Failure?
    ensures SdkErrors(client, listed, inspected) && r.Failure? ==> !Is(r.error, NoContainerFound)
  {
    match client
    case Failure(e) => Failure(Wrap("failed to get docker client", e))
    case Success(_) =>
      match GetContainer(client, listed, name)
      case Failure(e) =>
        if Is(e, NoContainerFound) then Success(None)
        else Failure(Wrap("failed to get container", e))
      case Success(_) =>
        match inspected
        case Failure(e) => Failure(Wrap("failed to inspect container", e))
        case Success(i) => Success(Some(i))
  }

  /** StopContainer's result and whether it sent a kill to Docker. */
  datatype StopReply = StopReply(out: Outcome, killSent: bool)

  /** StopContainer: a missing container counts as stopped and no kill is
      sent; otherwise the kill's failure is the call's failure. */
  function StopContainer(client: Result<Client>, listed: Result<seq<ContainerSummary>>,
                         kill: Outcome, name: string): (r: StopReply)
    ensures client.Success? && listed.Success? && FirstNamed(listed.value, name).None? ==>
      r == StopReply(Ok, false)
    ensures r.killSent <==> client.Success? && listed.Success? && FirstNamed(listed.value, name).Some?
    ensures r.killSent ==> (r.out.Ok? <==> kill.Ok?)
    ensures !r.killSent && SdkErrors(client, listed, Success(Inspection(None))) ==>
      (r.out.Ok? <==> client.Success? && listed.Success?)
  {
    match client
    case Failure(e) => StopReply(Err(Wrap("failed to get docker client", e)), false)
    case Success(_) =>
      match GetContainer(client, listed, name)
      case Failure(e) =>
        if Is(e, NoContainerFound) then StopReply(Ok, false)
        else StopReply(Err(Wrap("failed to get container", e)), false)
      case Success(_) =>
        match kill
        case Ok => StopReply(Ok, true)
        case Err(e) => StopReply(Err(Wrap("failed to stop container", e)), true)
  }

  /** StopContainer and GetStatus select the container the same way: a kill is
      sent exactly when GetStatus, given the same client and listing and a
      successful inspection, reports a container. Without a kill, the stop
      succeeds exactly when GetStatus does. */
  lemma StopKillsWhatStatusReports(client: Result<Client>, listed: Result<seq<ContainerSummary>>,
                                   inspected: Result<Inspection>, kill: Outcome, name: string)
    ensures inspected.Success? ==>
      (StopContainer(client, listed, kill, name).killSent <==>
         GetStatus(client, listed, inspected, name) == Success(Some(inspected.value)))
    ensures !StopContainer(client, listed, kill, name).killSent ==>
      (StopContainer(client, listed, kill, name).out.Ok? <==> GetStatus(client, listed, inspected, name).Success?)
  {
  }
}

=== FILE: errors.dfy ===
/** Go error values as the program uses them: package sentinels compared with
    errors.Is, wrappers built by fmt.Errorf("...: %w", err), and opaque
    failures reported by collaborators (Docker, the OS, the shell). Also the
    Option/Result/Outcome shapes used for Go's (value, error) returns. */
module Errors {

  /** The sentinel errors the program tests for with errors.Is. */
  datatype Kind =
    | JobAlreadyExists   // scheduler.ErrJobAlreadyExists
    | NoContainerFound   // dockerclient.ErrNoContainerFound
    | RepoNotFound       // repobrowser.ErrRepoNotFound
    | NotInitialized     // mage.ErrNotInitialized
    | Exist              // os.ErrExist
    | NotExist           // os.ErrNotExist

  datatype Error =
    | Sentinel(kind: Kind)
    | Wrapped(context: string, cause: Error)
    | Opaque(description: string)

  /** errors.Is: follows the chain of %w wrappers down to a sentinel. */
  predicate Is(e: Error, kind: Kind) {
    match e
    case Sentinel(k) => k == kind
    case Wrapped(_, cause) => Is(cause, kind)
    case Opaque(_) => false
  }

  /** fmt.Errorf(context + ": %w", e). */
  function Wrap(context: string, e: Error): (r: Error)
    ensures forall k :: Is(r, k) <==> Is(e, k)
    ensures r != e
  {
    Wrapped(context, e)
  }

  datatype Option<+T> = None | Some(value: T)

  /** A Go `(T, error)` return whose T is meaningless on error. */
  datatype Result<+T> = Success(value: T) | Failure(error: Error)

  /** A Go `error` return: nil or an error. */
  datatype Outcome = Ok | Err(error: Error)
}

=== FILE: events.dfy ===
/** runtime.EventsEmit(ctx, name, data...): the model appends one record per
    call to an event log owned by whoever performs the operation. */
module Events {
  import opened RepoStatus

  datatype Event = Event(name: string, data: seq<Status>)

  /** app.ReposLocationChangedEvent. */
  const ReposLocationChangedEvent: string := "repos-location-changed"
}

=== FILE: mage_runner.dfy ===
/** The build-tool runner of mage/magerunner.go: the not-initialized guard,
    the shell command line and the environment handed to `mage`. Spawning and
    waiting on processes are collaborators whose outcomes are parameters. */
module MageRunner {
  import opened Errors
  import opened Os
  import opened AppSettings

  /** Whether Init has set the package-level runner. The runner keeps a
      pointer to the application settings; the model passes the settings
      current at the time of the call to BuildCmd instead. */
  datatype Runner = Uninitialized | Initialized

  /** Init: the runner is set only when sourcing the shell init file
      (`shellInit` is that command's outcome) succeeded. */
  function Init(runner: Runner, shellInit: Outcome): (r: (Runner, Outcome))
    ensures shellInit.Ok? ==> r == (Initialized, Ok)
    ensures shellInit.Err? ==> r.0 == runner && r.1.Err?
  {
    match shellInit
    case Ok => (Initialized, Ok)
    case Err(e) => (runner, Err(Wrap("failed to init shell", e)))
  }

  const DisableInteractive: string := "PHAAS_DOCKER_DISABLE_INTERACTIVE=1"
  const OverridePrefix: string := "PHAAS_OVERRIDE_"

  /** strings.ToUpper on one character, for ASCII letters. */
  function UpperChar(c: char): (u: char)
    ensures 'a' <= c <= 'z' ==> u as int == c as int - 32
    ensures !('a' <= c <= 'z') ==> u == c
  {
    if 'a' <= c <= 'z' then (c as int - 32) as char else c
  }

  /** strings.ToUpper, for ASCII text. */
  function ToUpper(s: string): (r: string)
    ensures |r| == |s|
    ensures forall i :: 0 <= i < |s| ==> r[i] == UpperChar(s[i])
  {
    if s == [] then [] else [UpperChar(s[0])] + ToUpper(s[1..])
  }

  /** The environment entry one enabled override contributes. */
  function OverrideEntry(p: EnvParam): string {
    OverridePrefix + ToUpper(p.key) + "=" + p.value
  }

  /** The enabled overrides, in input order. */
  function EnabledParams(params: seq<EnvParam>): (r: seq<EnvParam>)
    ensures |r| <= |params|
    ensures forall p :: p in r <==> p in params && p.enabled
  {
    if params == [] then []
    else (if params[0].enabled then [params[0]] else []) + EnabledParams(params[1..])
  }

  /** The override entries buildCmd appends: one per enabled override, in
      input order; disabled ones contribute nothing. */
  function OverrideEnv(params: seq<EnvParam>): (r: seq<string>)
    ensures |r| == |EnabledParams(params)|
    ensures forall i :: 0 <= i < |r| ==> r[i] == OverrideEntry(EnabledParams(params)[i])
  {
    if params == [] then []
    else (if params[0].enabled then [OverrideEntry(params[0])] else []) + OverrideEnv(params[1..])
  }

  /** Adding one override at the end adds its entry at the end, if enabled. */
  lemma {:induction false} OverrideEnvSnoc(params: seq<EnvParam>, p: EnvParam)
    ensures OverrideEnv(params + [p]) == OverrideEnv(params) + (if p.enabled then [OverrideEntry(p)] else [])
    decreases |params|
  {
    if params == [] {
      assert params + [p] == [p];
      assert [p][1..] == [];
    } else {
      assert (params + [p])[0] == params[0];
      assert (params + [p])[1..] == params[1..] + [p];
      OverrideEnvSnoc(params[1..], p);
    }
  }

  /** A disabled override never reaches the environment. */
  lemma DisabledOverrideAddsNothing(params: seq<EnvParam>, p: EnvParam)
    requires !p.enabled
    ensures OverrideEnv(params + [p]) == OverrideEnv(params)
  {
    OverrideEnvSnoc(params, p);
  }

  /** The loop of buildCmd: walks the overrides in order and appends an entry
      for each enabled one. */
  method BuildEnvParams(params: seq<EnvParam>) returns (env: seq<string>)
    ensures env == OverrideEnv(params)
  {
    env := [];
    var i := 0;
    while i < |params|
      invariant 0 <= i <= |params|
      invariant env == OverrideEnv(params[..i])
    {
      OverrideEnvSnoc(params[..i], params[i]);
      assert params[..i + 1] == params[..i] + [params[i]];
      if params[i].enabled {
        env := env + [OverrideEntry(params[i])];
      }
      i := i + 1;
    }
    assert params[..i] == params;
  }

  /** The two entries an enabled and a disabled `FOO` override produce. */
  lemma OverrideExample()
    ensures OverrideEnv([EnvParam("FOO", "bar", true)]) == ["PHAAS_OVERRIDE_FOO=bar"]
    ensures OverrideEnv([EnvParam("foo", "bar", true)]) == ["PHAAS_OVERRIDE_FOO=bar"]
    ensures OverrideEnv([EnvParam("FOO", "bar", false)]) == []
  {
    var upper := EnvParam("FOO", "bar", true);
    var lower := EnvParam("foo", "bar", true);
    assert [upper][1..] == [] && [lower][1..] == [];
    assert ToUpper("FOO") == "FOO";
    assert ToUpper("foo") == "FOO";
    assert OverrideEntry(upper) == OverrideEntry(lower) == "PHAAS_OVERRIDE_FOO=bar";
  }

  /** strings.Join. */
  function JoinWords(words: seq<string>, sep: string): (r: string)
    ensures words == [] ==> r == ""
    ensures |words| == 1 ==> r == words[0]
  {
    if words == [] then ""
    else if |words| == 1 then words[0]
    else words[0] + sep + JoinWords(words[1..], sep)
  }

  /** Each word preceded by one space. */
  function Spaced(words: seq<string>): string {
    if words == [] then "" else " " + words[0] + Spaced(words[1..])
  }

  /** The shell command line: `mage` followed by the commands, joined with
      single spaces. */
  function CommandLine(commands: seq<string>): (r: string)
    ensures r == "mage" + Spaced(commands)
  {
    JoinIsFirstThenSpaced("mage", commands);
    JoinWords(["mage"] + commands, " ")
  }

  /** strings.Join with one space is the first word, then each other word
      after one space. */
  lemma {:induction false} JoinIsFirstThenSpaced(first: string, rest: seq<string>)
    ensures JoinWords([first] + rest, " ") == first + Spaced(rest)
    decreases |rest|
  {
    if rest == [] {
      assert [first] + rest == [first];
    } else {
      assert ([first] + rest)[1..] == [rest[0]] + rest[1..];
      JoinIsFirstThenSpaced(rest[0], rest[1..]);
    }
  }

  /** The command buildCmd prepares: shell executable, arguments, working
      directory and environment. */
  datatype Cmd = Cmd(shell: string, args: seq<string>, dir: string, env: seq<string>)

  /** buildCmd: fails with ErrNotInitialized before Init; otherwise runs
      `<shell> -c "mage <commands>"` in `path` with the inherited environment
      (`environ`, what cmd.Environ() reports), then the interactivity switch,
      then the enabled overrides. */
  function BuildCmd(runner: Runner, settings: Settings, path: string, environ: seq<string>, commands: seq<string>)
    : (r: Result<Cmd>)
    ensures runner.Uninitialized? ==> r == Failure(Sentinel(NotInitialized))
    ensures runner.Initialized? ==> r.Success?
    ensures r.Success? ==>
      && r.value.shell == settings.shellExecutablePath
      && r.value.args == ["-c", CommandLine(commands)]
      && r.value.dir == path
    ensures r.Success? ==>
      && |r.value.env| == |environ| + 1 + |EnabledParams(settings.envParams)|
      && r.value.env[..|environ|] == environ
      && r.value.env[|environ|] == DisableInteractive
      && r.value.env[|environ| + 1..] == OverrideEnv(GetEnvParamOverrides(settings))
  {
    match runner
    case Uninitialized => Failure(Sentinel(NotInitialized))
    case Initialized =>
      var env := environ + [DisableInteractive] + OverrideEnv(GetEnvParamOverrides(settings));
      assert env[|environ| + 1..] == OverrideEnv(GetEnvParamOverrides(settings));
      Success(Cmd(settings.shellExecutablePath, ["-c", CommandLine(commands)], path, env))
  }

  /** Exec: builds the command and starts it without waiting. `spawn` is the
      outcome of cmd.Start and the handle it leaves in cmd.Process. Before
      Init nothing is started. */
  function Exec(runner: Runner, spawn: Result<Option<Process>>): (r: Result<Option<Process>>)
    ensures runner.Uninitialized? ==> r.Failure? && Is(r.error, NotInitialized)
    ensures runner.Initialized? ==> (r.Success? <==> spawn.Success?)
    ensures r.Success? ==> r == spawn
  {
    match runner
    case Uninitialized => Failure(Wrap("unable to build mage command", Sentinel(NotInitialized)))
    case Initialized =>
      match spawn
      case Failure(e) => Failure(Wrap("failed to start mage command", e))
      case Success(p) => Success(p)
  }

  /** The lifecycle of an os/exec Cmd: a Cmd can be started once. */
  datatype CmdState = Fresh | Started

  /** cmd.Start: refuses a Cmd already started; otherwise `spawn` decides. */
  function StartCmd(state: CmdState, spawn: Outcome): (r: (CmdState, Outcome))
    ensures state == Started ==> r.1.Err?
    ensures state == Fresh ==> r.1 == spawn
  {
    if state == Started then (Started, Err(Opaque("exec: already started")))
    else match spawn
      case Ok => (Started, Ok)
      case Err(e) => (Fresh, Err(e))
  }

  /** cmd.Run: cmd.Start, then the outcome of waiting for the process. */
  function RunCmd(state: CmdState, spawn: Outcome, wait: Outcome): (r: Outcome)
    ensures state == Started ==> r.Err?
    ensures state == Fresh ==> (r.Ok? <==> spawn.Ok? && wait.Ok?)
  {
    match StartCmd(state, spawn).1
    case Err(e) => Err(e)
    case Ok => wait
  }

  /** ExecWait as the source writes it: cmd.Start() and then cmd.Run() on the
      same Cmd, whose own Start refuses the already started command. */
  function ExecWaitAsWritten(runner: Runner, spawn: Outcome, wait: Outcome): (r: Outcome)
    ensures runner.Uninitialized? ==> r.Err? && Is(r.error, NotInitialized)
  {
    match runner
    case Uninitialized => Err(Wrap("unable to build mage command", Sentinel(NotInitialized)))
    case Initialized =>
      var (state, started) := StartCmd(Fresh, spawn);
      match started
      case Err(e) => Err(Wrap("failed to start mage command", e))
      case Ok => RunCmd(state, spawn, wait)
  }

  /** As written, ExecWait never reports success: either the first Start
      fails, or the second one refuses the started command. */
  lemma ExecWaitAsWrittenNeverSucceeds(runner: Runner, spawn: Outcome, wait: Outcome)
    ensures ExecWaitAsWritten(runner, spawn, wait).Err?
  {
  }

  /** ExecWait as intended: build the command, start it once and wait for it. */
  function ExecWait(runner: Runner, spawn: Outcome, wait: Outcome): (r: Outcome)
    ensures runner.Uninitialized? ==> r.Err? && Is(r.error, NotInitialized)
    ensures runner.Initialized? ==> (r.Ok? <==> spawn.Ok? && wait.Ok?)
  {
    match runner
    case Uninitialized => Err(Wrap("unable to build mage command", Sentinel(NotInitialized)))
    case Initialized => RunCmd(Fresh, spawn, wait)
  }

  /** The intended ExecWait succeeds exactly when the command starts and exits
      cleanly, where the written one never does. */
  lemma ExecWaitSucceedsWhenCommandDoes(spawn: Outcome, wait: Outcome)
    requires spawn.Ok? && wait.Ok?
    ensures ExecWait(Initialized, spawn, wait) == Ok
    ensures ExecWaitAsWritten(Initialized, spawn, wait) != Ok
  {
  }
}

=== FILE: name_order.dfy ===
/** The order in which the repository browser lists services: by name,
    case-insensitively (strings.ToLower, then strings.Compare).

    strings.Compare compares the UTF-8 bytes of its operands, and UTF-8 keeps
    the order of code points, so comparing characters by code point is the
    same order. Lower-casing is modelled for ASCII letters only. */
module NameOrder {
  import opened RepoStatus

  /** strings.ToLower on one character, for ASCII letters. */
  function LowerChar(c: char): (l: char)
    ensures 'A' <= c <= 'Z' ==> l as int == c as int + 32
    ensures !('A' <= c <= 'Z') ==> l == c
  {
    if 'A' <= c <= 'Z' then (c as int + 32) as char else c
  }

  /** strings.ToLower, for ASCII text. */
  function ToLower(s: string): (r: string)
    ensures |r| == |s|
    ensures forall i :: 0 <= i < |s| ==> r[i] == LowerChar(s[i])
  {
    if s == [] then [] else [LowerChar(s[0])] + ToLower(s[1..])
  }

  /** strings.Compare: -1, 0 or +1 as `a` sorts before, equal to or after `b`,
      comparing character by character and a proper prefix first. */
  function Compare(a: string, b: string): (r: int)
    ensures -1 <= r <= 1
    ensures r == 0 <==> a == b
  {
    if a == [] && b == [] then 0
    else if a == [] then -1
    else if b == [] then 1
    else if a[0] < b[0] then -1
    else if a[0] > b[0] then 1
    else
      var r := Compare(a[1..], b[1..]);
      assert a == [a[0]] + a[1..] && b == [b[0]] + b[1..];
      r
  }

  /** Swapping the operands negates the comparison. */
  lemma {:induction false} CompareAntisymmetric(a: string, b: string)
    ensures Compare(a, b) == -Compare(b, a)
    decreases |a|
  {
    if a != [] && b != [] && a[0] == b[0] {
      CompareAntisymmetric(a[1..], b[1..]);
    }
  }

  /** "Sorts no later than" is transitive. */
  lemma {:induction false} CompareTransitive(a: string, b: string, c: string)
    requires Compare(a, b) <= 0 && Compare(b, c) <= 0
    ensures Compare(a, c) <= 0
    decreases |a|
  {
    if a != [] && b != [] && c != [] && a[0] == b[0] == c[0] {
      CompareTransitive(a[1..], b[1..], c[1..]);
    }
  }

  /** `a` sorts before `b` after a common prefix of length k. */
  predicate LexLessAt(a: string, b: string, k: int) {
    0 <= k <= |a| && k <= |b| && a[..k] == b[..k] &&
      ((k == |a| && k < |b|) || (k < |a| && k < |b| && a[k] < b[k]))
  }

  /** `a` sorts strictly before `b` in lexicographic order: after a common
      prefix of length k, either `a` ends while `b` goes on, or both go on and
      `a` has the smaller character at position k. */
  ghost predicate LexLess(a: string, b: string) {
    exists k :: LexLessAt(a, b, k)
  }

  /** A witness for two strings with the same first character is, shifted by
      one, a witness for their tails. */
  lemma LexLessAtTail(a: string, b: string, k: int)
    requires a != [] && b != [] && a[0] == b[0] && LexLessAt(a, b, k)
    ensures k > 0 && LexLessAt(a[1..], b[1..], k - 1)
  {
    assert k > 0;
    assert a[1..][..k - 1] == a[..k][1..];
    assert b[1..][..k - 1] == b[..k][1..];
  }

  /** A witness for the tails, shifted by one, is a witness for the strings
      when they share their first character. */
  lemma LexLessAtCons(a: string, b: string, k: int)
    requires a != [] && b != [] && a[0] == b[0] && LexLessAt(a[1..], b[1..], k)
    ensures LexLessAt(a, b, k + 1)
  {
    assert a[..k + 1] == [a[0]] + a[1..][..k];
    assert b[..k + 1] == [b[0]] + b[1..][..k];
  }

  /** Two strings with the same first character are ordered as their tails. */
  lemma LexLessTails(a: string, b: string)
    requires a != [] && b != [] && a[0] == b[0]
    ensures LexLess(a, b) <==> LexLess(a[1..], b[1..])
  {
    if LexLess(a, b) {
      var k :| LexLessAt(a, b, k);
      LexLessAtTail(a, b, k);
    }
    if LexLess(a[1..], b[1..]) {
      var k :| LexLessAt(a[1..], b[1..], k);
      LexLessAtCons(a, b, k);
    }
  }

  /** Compare answers -1 exactly when its first operand sorts strictly
      before the second in lexicographic order. */
  lemma {:induction false} CompareLessIsLexLess(a: string, b: string)
    ensures Compare(a, b) == -1 <==> LexLess(a, b)
    decreases |a|
  {
    if a == [] && b == [] {
    } else if a == [] {
      assert LexLessAt(a, b, 0);
    } else if b == [] {
    } else if a[0] < b[0] {
      assert LexLessAt(a, b, 0);
    } else if a[0] > b[0] {
      forall k | 0 < k <= |a| && k <= |b|
        ensures a[..k] != b[..k]
      {
        assert a[..k][0] == a[0] && b[..k][0] == b[0];
      }
    } else {
      LexLessTails(a, b);
      CompareLessIsLexLess(a[1..], b[1..]);
    }
  }

  /** strings.Compare's meaning: -1, 0 or +1 as `a` sorts lexicographically
      before, equal to or after `b`. */
  lemma CompareIsLexicographic(a: string, b: string)
    ensures Compare(a, b) == -1 <==> LexLess(a, b)
    ensures Compare(a, b) == 0 <==> a == b
    ensures Compare(a, b) == 1 <==> LexLess(b, a)
  {
    CompareLessIsLexLess(a, b);
    CompareLessIsLexLess(b, a);
    CompareAntisymmetric(a, b);
  }

  /** The sort key of a listed service. */
  function Key(d: BasicDetails): string {
    ToLower(d.name)
  }

  /** Ordered by lower-cased name, every pair and not just neighbours. */
  predicate SortedByName(s: seq<BasicDetails>) {
    forall i, j :: 0 <= i < j < |s| ==> Compare(Key(s[i]), Key(s[j])) <= 0
  }

  /** Inserts `d` before the first entry it does not sort after. */
  function Insert(d: BasicDetails, s: seq<BasicDetails>): (r: seq<BasicDetails>)
    requires SortedByName(s)
    ensures SortedByName(r)
    ensures multiset(r) == multiset(s) + multiset{d}
  {
    if s == [] then [d]
    else if Compare(Key(d), Key(s[0])) <= 0 then
      InsertFrontKeepsOrder(d, s);
      [d] + s
    else
      var rest := Insert(d, s[1..]);
      CompareAntisymmetric(Key(d), Key(s[0]));
      InsertBehindKeepsOrder(s[0], rest, d, s[1..]);
      assert s == [s[0]] + s[1..];
      [s[0]] + rest
  }

  lemma InsertFrontKeepsOrder(d: BasicDetails, s: seq<BasicDetails>)
    requires SortedByName(s) && s != []
    requires Compare(Key(d), Key(s[0])) <= 0
    ensures SortedByName([d] + s)
  {
    var r := [d] + s;
    forall i, j | 0 <= i < j < |r|
      ensures Compare(Key(r[i]), Key(r[j])) <= 0
    {
      if i == 0 && j > 1 {
        CompareTransitive(Key(d), Key(s[0]), Key(s[j - 1]));
      }
    }
  }

  lemma InsertBehindKeepsOrder(head: BasicDetails, rest: seq<BasicDetails>, d: BasicDetails, tail: seq<BasicDetails>)
    requires SortedByName(rest) && SortedByName([head] + tail)
    requires multiset(rest) == multiset(tail) + multiset{d}
    requires Compare(Key(head), Key(d)) <= 0
    ensures SortedByName([head] + rest)
  {
    var r := [head] + rest;
    forall i, j | 0 <= i < j < |r|
      ensures Compare(Key(r[i]), Key(r[j])) <= 0
    {
      assert r[j] == rest[j - 1];
      if i == 0 {
        var x := rest[j - 1];
        assert x in multiset(rest);
        if x != d {
          assert x in multiset(tail);
          var k :| 0 <= k < |tail| && tail[k] == x;
          assert ([head] + tail)[0] == head && ([head] + tail)[k + 1] == x;
        }
      } else {
        assert r[i] == rest[i - 1];
      }
    }
  }

  /** slices.SortFunc by lower-cased name. The source's sort is not stable,
      so entries whose keys tie may come out in either order; this one keeps
      them in input order. */
  function SortByName(s: seq<BasicDetails>): (r: seq<BasicDetails>)
    ensures SortedByName(r)
    ensures multiset(r) == multiset(s)
  {
    if s == [] then []
    else
      assert s == [s[0]] + s[1..];
      Insert(s[0], SortByName(s[1..]))
  }

  /** Entries that share a lower-cased name are the same entry. */
  predicate KeyInjective(s: seq<BasicDetails>) {
    forall x, y :: x in s && y in s && Key(x) == Key(y) ==> x == y
  }

  /** The first entry of a sorted listing sorts no later than any entry. */
  lemma SortedHeadIsLeast(s: seq<BasicDetails>, x: BasicDetails)
    requires SortedByName(s) && x in s
    ensures Compare(Key(s[0]), Key(x)) <= 0
  {
    var k :| 0 <= k < |s| && s[k] == x;
    if k == 0 {
      assert Key(s[0]) == Key(x);
    }
  }

  /** When distinct entries never share a lower-cased name, the sorted
      listing is unique: any two sorted arrangements of the same entries are
      equal, so the order of the input does not show in the output. */
  lemma {:induction false} SortedArrangementIsUnique(a: seq<BasicDetails>, b: seq<BasicDetails>)
    requires SortedByName(a) && SortedByName(b) && KeyInjective(a)
    requires multiset(a) == multiset(b)
    ensures a == b
    decreases |a|
  {
    if a == [] {
      assert |b| == |multiset(b)| == 0;
    } else {
      assert b != [] by {
        assert a[0] in multiset(b);
      }
      SameHeads(a, b);
      SortedTail(a);
      SortedTail(b);
      TailsHaveSameEntries(a, b);
      SortedArrangementIsUnique(a[1..], b[1..]);
      assert a == [a[0]] + a[1..] && b == [b[0]] + b[1..];
    }
  }

  /** Two sorted arrangements of the same entries, without distinct entries
      sharing a lower-cased name, start with the same entry. */
  lemma SameHeads(a: seq<BasicDetails>, b: seq<BasicDetails>)
    requires SortedByName(a) && SortedByName(b) && KeyInjective(a)
    requires multiset(a) == multiset(b) && a != [] && b != []
    ensures a[0] == b[0]
  {
    assert a[0] in multiset(b) && b[0] in multiset(a);
    SortedHeadIsLeast(a, b[0]);
    SortedHeadIsLeast(b, a[0]);
    CompareAntisymmetric(Key(a[0]), Key(b[0]));
    assert a[0] in a && b[0] in a;
  }

  lemma TailsHaveSameEntries(a: seq<BasicDetails>, b: seq<BasicDetails>)
    requires a != [] && b != [] && a[0] == b[0]
    requires multiset(a) == multiset(b)
    ensures multiset(a[1..]) == multiset(b[1..])
  {
    assert a == [a[0]] + a[1..] && b == [b[0]] + b[1..];
    assert multiset(a) == multiset([a[0]]) + multiset(a[1..]);
    assert multiset(b) == multiset([a[0]]) + multiset(b[1..]);
    forall x
      ensures multiset(a[1..])[x] == multiset(b[1..])[x]
    {
      assert multiset(a)[x] == multiset(b)[x];
    }
  }

  lemma SortedTail(s: seq<BasicDetails>)
    requires SortedByName(s) && s != []
    ensures SortedByName(s[1..])
    ensures KeyInjective(s) ==> KeyInjective(s[1..])
  {
    forall i, j | 0 <= i < j < |s| - 1
      ensures Compare(Key(s[1..][i]), Key(s[1..][j])) <= 0
    {
      assert s[1..][i] == s[i + 1] && s[1..][j] == s[j + 1];
    }
  }
}

=== FILE: os.dfy ===
/** The operating-system values the core handles: directory entries, process
    handles and the outcome of looking a process up by id. The system calls
    themselves are collaborators whose results are passed in. */
module Os {
  import opened Errors

  /** os.DirEntry, reduced to what the core reads of it. */
  datatype DirEntry = DirEntry(name: string, isDir: bool)

  /** *os.Process, reduced to its id. */
  datatype Process = Process(pid: int)

  /** The result of os.FindProcess(pid): an error, or a (possibly nil) handle. */
  datatype ProcessLookup =
    | LookupFailed(error: Error)
    | Resolved(handle: Option<Process>)

  /** filepath.Join of a clean directory and one path component: empty
      elements are dropped, and the result is clean, so the root keeps its
      single separator and the current directory disappears. */
  function Join(dir: string, name: string): (r: string)
    ensures dir == "" ==> r == name
    ensures name == "" ==> r == dir
    ensures dir == "/" && name != "" ==> r == "/" + name
    ensures dir == "." && name != "" ==> r == name
    ensures dir !in {"", "/", "."} && name != "" ==>
      |r| == |dir| + 1 + |name| && r[..|dir|] == dir && r[|dir|] == '/' && r[|dir| + 1..] == name
  {
    if dir == "" then name
    else if name == "" then dir
    else if dir == "/" then "/" + name
    else if dir == "." then name
    else dir + "/" + name
  }

  /** The joined path ends with the component: it names the entry `name`
      inside `dir`, whichever directory form `dir` takes. */
  lemma JoinEndsWithName(dir: string, name: string)
    requires name != ""
    ensures var r := Join(dir, name);
            |name| <= |r| && r[|r| - |name|..] == name
  {
  }
}

=== FILE: repo_browser.dfy ===
/** The repository browser of repo_browser/repo_browser.go: the store of
    controllers keyed by directory name, how startup fills it from the repos
    directory, the sorted listing, and the per-service operations the UI
    calls, each of which looks the service up and delegates to its
    controller.

    The store holds controllers by pointer in the source, so a delegated call
    that changes its controller changes the stored one; the model writes the
    changed controller back under the same name. The directory read and
    Go's map iteration order are parameters. */
module RepoBrowser {
  import opened Errors
  import opened Os
  import opened RepoStatus
  import opened Events
  import JobScheduler
  import opened ApiRepo
  import opened RepoFactory
  import opened NameOrder

  /** RepoStore: a map that stays nil until the first Push. A nil controller
      may be stored, and Get treats it as missing. */
  datatype RepoStore = RepoStore(repoControllers: Option<map<string, Option<ApiController>>>)

  /** The zero RepoStore the browser is created with. */
  const EmptyStore: RepoStore := RepoStore(None)

  /** The entries of the store; a nil map has none. */
  function Entries(store: RepoStore): map<string, Option<ApiController>> {
    if store.repoControllers.None? then map[] else store.repoControllers.value
  }

  /** Push: creates the map on first use, then stores `controller` under
      `name`, replacing what was there. */
  function Push(store: RepoStore, name: string, controller: Option<ApiController>): (r: RepoStore)
    ensures r.repoControllers.Some?
    ensures Entries(r).Keys == Entries(store).Keys + {name}
    ensures Entries(r)[name] == controller
    ensures forall n :: n in Entries(store) && n != name ==> Entries(r)[n] == Entries(store)[n]
  {
    var m := if store.repoControllers.None? then map[] else store.repoControllers.value;
    RepoStore(Some(m[name := controller]))
  }

  /** Get: the controller stored under `name`; a missing name and a nil
      controller are both ErrRepoNotFound. */
  function Get(store: RepoStore, name: string): (r: Result<ApiController>)
    ensures r.Success? <==> name in Entries(store) && Entries(store)[name].Some?
    ensures r.Success? ==> r.value == Entries(store)[name].value
    ensures r.Failure? ==> r.error == Sentinel(RepoNotFound)
  {
    if name in Entries(store) && Entries(store)[name].Some? then Success(Entries(store)[name].value)
    else Failure(Sentinel(RepoNotFound))
  }

  /** What is pushed is what Get returns, a pushed nil hides the name, and
      other names are unaffected; the zero store finds nothing. */
  lemma PushThenGet(store: RepoStore, name: string, c: ApiController, other: string, x: Option<ApiController>)
    ensures Get(Push(store, name, Some(c)), name) == Success(c)
    ensures Get(Push(store, name, None), name) == Failure(Sentinel(RepoNotFound))
    ensures other != name ==> Get(Push(store, name, x), other) == Get(store, other)
    ensures Get(EmptyStore, other) == Failure(Sentinel(RepoNotFound))
  {
  }

  /** Every stored controller is stored under its own name. */
  predicate WellKeyed(store: RepoStore) {
    forall n :: n in Entries(store) && Entries(store)[n].Some? ==> Entries(store)[n].value.name == n
  }

  /** No nil controller is stored. */
  predicate NoNil(store: RepoStore) {
    forall n :: n in Entries(store) ==> Entries(store)[n].Some?
  }

  /** A directory entry initRepos turns into a controller. */
  ghost predicate Admitted(e: DirEntry) {
    e.isDir && MatchesApiPattern(e.name)
  }

  /** The controller initRepos builds for an admitted entry under `root`. */
  function ControllerFor(root: string, e: DirEntry): ApiController {
    ApiController(e.name, Join(root, e.name), e, 0, ZeroStatus)
  }

  /** One iteration of initRepos' loop: files are skipped; a directory is
      offered to the factory under root/name and pushed when accepted. */
  function Register(store: RepoStore, root: string, e: DirEntry): (r: RepoStore)
    ensures Admitted(e) ==> r == Push(store, e.name, Some(ControllerFor(root, e)))
    ensures !Admitted(e) ==> r == store
  {
    if !e.isDir then store
    else match BuildRepoController(Join(root, e.name), e.name, e)
      case None => store
      case Some(c) => Push(store, e.name, Some(c))
  }

  /** The loop of initRepos over the entries in the order ReadDir lists them. */
  function RegisterAll(store: RepoStore, root: string, entries: seq<DirEntry>): (r: RepoStore)
    ensures Entries(store).Keys <= Entries(r).Keys
    ensures (forall e :: e in entries ==> !Admitted(e)) ==> r == store
    decreases |entries|
  {
    if entries == [] then store else RegisterAll(Register(store, root, entries[0]), root, entries[1..])
  }

  /** The names the store holds after the loop: the ones it held, and every
      admitted directory's. */
  lemma {:induction false} RegisterAllKeys(store: RepoStore, root: string, entries: seq<DirEntry>)
    ensures forall n :: n in Entries(RegisterAll(store, root, entries)) <==>
      n in Entries(store) || exists e :: e in entries && Admitted(e) && e.name == n
    decreases |entries|
  {
    if entries != [] {
      RegisterAllKeys(Register(store, root, entries[0]), root, entries[1..]);
      assert entries == [entries[0]] + entries[1..];
    }
  }

  /** A name no admitted directory carries keeps what the store held. */
  lemma {:induction false} RegisterAllKeepsOthers(store: RepoStore, root: string, entries: seq<DirEntry>, n: string)
    requires n in Entries(store)
    requires forall e :: e in entries && Admitted(e) ==> e.name != n
    ensures n in Entries(RegisterAll(store, root, entries))
    ensures Entries(RegisterAll(store, root, entries))[n] == Entries(store)[n]
    decreases |entries|
  {
    if entries != [] {
      assert entries[0] in entries;
      RegisterAllKeepsOthers(Register(store, root, entries[0]), root, entries[1..], n);
    }
  }

  /** An admitted directory, the only admitted entry with its name (as
      directory names are), ends up stored with a fresh controller at
      root/name. */
  lemma {:induction false} RegisterAllStores(store: RepoStore, root: string, entries: seq<DirEntry>, x: DirEntry)
    requires x in entries && Admitted(x)
    requires forall e :: e in entries && Admitted(e) && e.name == x.name ==> e == x
    ensures x.name in Entries(RegisterAll(store, root, entries))
    ensures Entries(RegisterAll(store, root, entries))[x.name] == Some(ControllerFor(root, x))
    decreases |entries|
  {
    var s1 := Register(store, root, entries[0]);
    if x in entries[1..] {
      RegisterAllStores(s1, root, entries[1..], x);
    } else {
      assert entries[0] == x;
      forall e | e in entries[1..] && Admitted(e)
        ensures e.name != x.name
      {
        assert e in entries;
      }
      RegisterAllKeepsOthers(s1, root, entries[1..], x.name);
    }
  }

  /** The loop keeps every stored controller under its own name and adds no
      nil. */
  lemma {:induction false} RegisterAllKeepsShape(store: RepoStore, root: string, entries: seq<DirEntry>)
    requires WellKeyed(store) && NoNil(store)
    ensures WellKeyed(RegisterAll(store, root, entries)) && NoNil(RegisterAll(store, root, entries))
    decreases |entries|
  {
    if entries != [] {
      RegisterAllKeepsShape(Register(store, root, entries[0]), root, entries[1..]);
    }
  }

  /** initRepos' error return and the store after it. */
  datatype Loaded = Loaded(store: RepoStore, out: Outcome)

  /** initRepos: `readDir` is os.ReadDir of the repos directory `root`. A read
      error leaves the store alone; otherwise every directory the factory
      accepts is pushed under its name. */
  method InitRepos(root: string, readDir: Result<seq<DirEntry>>, store: RepoStore) returns (r: Loaded)
    ensures readDir.Failure? ==> r.store == store && r.out.Err?
    ensures readDir.Success? ==> r.out == Ok && r.store == RegisterAll(store, root, readDir.value)
    ensures readDir.Success? ==> forall n :: n in Entries(r.store) <==>
      n in Entries(store) || exists e :: e in readDir.value && Admitted(e) && e.name == n
  {
    if readDir.Failure? {
      return Loaded(store, Err(Wrap("failed to read repos", readDir.error)));
    }
    var folders := readDir.value;
    var current := store;
    var i := 0;
    while i < |folders|
      invariant 0 <= i <= |folders|
      invariant RegisterAll(current, root, folders[i..]) == RegisterAll(store, root, folders)
    {
      var folder := folders[i];
      assert folders[i..] == [folder] + folders[i + 1..];
      if folder.isDir {
        var c := BuildRepoController(Join(root, folder.name), folder.name, folder);
        if c.Some? {
          current := Push(current, folder.name, c);
        }
      }
      i := i + 1;
    }
    RegisterAllKeys(store, root, folders);
    return Loaded(current, Ok);
  }

  /** Startup's outcome: the filled store, or the panic initRepos' error
      raises. */
  datatype Boot = Ready(store: RepoStore) | Panicked(error: Error)

  /** Startup: fills the zero store from the repos directory and panics on a
      read error. */
  method Startup(root: string, readDir: Result<seq<DirEntry>>) returns (b: Boot)
    ensures b.Panicked? <==> readDir.Failure?
    ensures b.Ready? ==> WellKeyed(b.store) && NoNil(b.store)
    ensures b.Ready? ==> forall n :: n in Entries(b.store) <==>
      exists e :: e in readDir.value && Admitted(e) && e.name == n
  {
    var loaded := InitRepos(root, readDir, EmptyStore);
    if loaded.out.Err? {
      return Panicked(Wrap("failed to init repos", loaded.out.error));
    }
    RegisterAllKeepsShape(EmptyStore, root, readDir.value);
    return Ready(loaded.store);
  }

  /** `order` is one pass of a range over the store's map: each name once. */
  ghost predicate Enumerates(store: RepoStore, order: seq<string>) {
    && (forall n :: n in order <==> n in Entries(store))
    && (forall i, j :: 0 <= i < j < |order| ==> order[i] != order[j])
  }

  /** The details of the controllers named by `order`, in that order. */
  function DetailsInOrder(store: RepoStore, order: seq<string>): (r: seq<BasicDetails>)
    requires forall n :: n in order ==> n in Entries(store) && Entries(store)[n].Some?
    ensures |r| == |order|
    ensures forall i :: 0 <= i < |order| ==> r[i] == BasicDetailsOf(Entries(store)[order[i]].value)
  {
    if order == [] then []
    else [BasicDetailsOf(Entries(store)[order[0]].value)] + DetailsInOrder(store, order[1..])
  }

  /** ListRepos: the basic details of every stored controller, sorted by
      lower-cased name. `order` is the order the map range visits the names
      in; a nil controller would panic, hence NoNil. */
  function ListRepos(store: RepoStore, order: seq<string>): (r: seq<BasicDetails>)
    requires Enumerates(store, order) && NoNil(store)
    ensures SortedByName(r)
    ensures multiset(r) == multiset(DetailsInOrder(store, order))
    ensures |r| == |order|
    ensures forall n :: n in Entries(store) ==> BasicDetailsOf(Entries(store)[n].value) in r
    ensures forall d :: d in r ==> exists n :: n in Entries(store) && d == BasicDetailsOf(Entries(store)[n].value)
  {
    var details := DetailsInOrder(store, order);
    var r := SortByName(details);
    assert |r| == |multiset(r)| == |multiset(details)| == |details|;
    forall n | n in Entries(store)
      ensures BasicDetailsOf(Entries(store)[n].value) in r
    {
      var i :| 0 <= i < |order| && order[i] == n;
      assert details[i] in multiset(r);
    }
    forall d | d in r
      ensures exists n :: n in Entries(store) && d == BasicDetailsOf(Entries(store)[n].value)
    {
      assert d in multiset(details);
      var i :| 0 <= i < |details| && details[i] == d;
      assert order[i] in Entries(store);
    }
    r
  }

  /** No two stored names differ only in case. */
  ghost predicate CaseDistinct(store: RepoStore) {
    forall a, b :: a in Entries(store) && b in Entries(store) && a != b ==> ToLower(a) != ToLower(b)
  }

  /** For a store whose controllers sit under their own names and whose names
      differ in more than case, the listing does not depend on the order the
      map range happens to visit the names in. */
  lemma ListingIgnoresMapOrder(store: RepoStore, o1: seq<string>, o2: seq<string>)
    requires Enumerates(store, o1) && Enumerates(store, o2) && NoNil(store)
    requires WellKeyed(store) && CaseDistinct(store)
    ensures ListRepos(store, o1) == ListRepos(store, o2)
  {
    EnumerationsListSameDetails(store, o1, o2);
    ListingKeyInjective(store, o1);
    SortedArrangementIsUnique(ListRepos(store, o1), ListRepos(store, o2));
  }

  /** Any two passes over the map produce the same details, up to order. */
  lemma EnumerationsListSameDetails(store: RepoStore, o1: seq<string>, o2: seq<string>)
    requires Enumerates(store, o1) && Enumerates(store, o2) && NoNil(store) && WellKeyed(store)
    ensures multiset(DetailsInOrder(store, o1)) == multiset(DetailsInOrder(store, o2))
  {
    var d1, d2 := DetailsInOrder(store, o1), DetailsInOrder(store, o2);
    DetailsAreDistinct(store, o1);
    DetailsAreDistinct(store, o2);
    DetailsCoverStore(store, o1, o2);
    DetailsCoverStore(store, o2, o1);
    DistinctSameElementsSameMultiset(d1, d2);
  }

  /** Whatever one pass lists, another pass lists too. */
  lemma DetailsCoverStore(store: RepoStore, o1: seq<string>, o2: seq<string>)
    requires Enumerates(store, o1) && Enumerates(store, o2) && NoNil(store)
    ensures forall d :: d in DetailsInOrder(store, o1) ==> d in DetailsInOrder(store, o2)
  {
    var d1, d2 := DetailsInOrder(store, o1), DetailsInOrder(store, o2);
    forall d | d in d1
      ensures d in d2
    {
      var i :| 0 <= i < |d1| && d1[i] == d;
      var n := o1[i];
      assert n in o1;
      assert n in Entries(store);
      assert n in o2;
      var j :| 0 <= j < |o2| && o2[j] == n;
      assert d2[j] == d;
    }
  }

  /** Listed entries with the same lower-cased name are the same entry. */
  lemma ListingKeyInjective(store: RepoStore, order: seq<string>)
    requires Enumerates(store, order) && NoNil(store) && WellKeyed(store) && CaseDistinct(store)
    ensures KeyInjective(ListRepos(store, order))
  {
    var l := ListRepos(store, order);
    forall x, y | x in l && y in l && Key(x) == Key(y)
      ensures x == y
    {
      var a :| a in Entries(store) && x == BasicDetailsOf(Entries(store)[a].value);
      var b :| b in Entries(store) && y == BasicDetailsOf(Entries(store)[b].value);
    }
  }

  /** The listed details of distinct names are distinct. */
  lemma DetailsAreDistinct(store: RepoStore, order: seq<string>)
    requires Enumerates(store, order) && NoNil(store) && WellKeyed(store)
    ensures forall i, j :: 0 <= i < j < |order| ==> DetailsInOrder(store, order)[i] != DetailsInOrder(store, order)[j]
  {
    var d := DetailsInOrder(store, order);
    forall i, j | 0 <= i < j < |order|
      ensures d[i] != d[j]
    {
      assert d[i].name == order[i] && d[j].name == order[j];
    }
  }

  /** Two repetition-free sequences with the same elements hold the same
      multiset. */
  lemma DistinctSameElementsSameMultiset(a: seq<BasicDetails>, b: seq<BasicDetails>)
    requires forall i, j :: 0 <= i < j < |a| ==> a[i] != a[j]
    requires forall i, j :: 0 <= i < j < |b| ==> b[i] != b[j]
    requires forall x :: x in a <==> x in b
    ensures multiset(a) == multiset(b)
  {
    forall x
      ensures multiset(a)[x] == multiset(b)[x]
    {
      DistinctCount(a, x);
      DistinctCount(b, x);
    }
  }

  /** In a repetition-free sequence each element occurs once. */
  lemma {:induction false} DistinctCount(a: seq<BasicDetails>, x: BasicDetails)
    requires forall i, j :: 0 <= i < j < |a| ==> a[i] != a[j]
    ensures multiset(a)[x] == if x in a then 1 else 0
  {
    if a != [] {
      assert a == [a[0]] + a[1..];
      DistinctCount(a[1..], x);
      if x == a[0] {
        assert x !in a[1..];
      }
    }
  }

  /** The browser's mutable state: the store, the shared scheduler and the
      events emitted so far. */
  datatype App = App(repos: RepoStore, sched: JobScheduler.Scheduler<Watcher>, events: seq<Event>)

  /** The error every per-service call returns for a name it cannot find. */
  function NotFound(name: string): (e: Error)
    ensures Is(e, RepoNotFound)
  {
    Wrap("failed to get repo '" + name + "'", Sentinel(RepoNotFound))
  }

  /** The world a stored controller's operation steps. */
  function WorldOf(app: App, c: ApiController): World {
    World(c, app.sched, app.events)
  }

  /** Writes a stepped world back: the controller under `name`, and the
      scheduler and events it left. */
  function Adopt(app: App, name: string, w: World): (r: App)
    ensures Get(r.repos, name) == Success(w.ctrl)
    ensures r.sched == w.sched && r.events == w.events
  {
    App(Push(app.repos, name, Some(w.ctrl)), w.sched, w.events)
  }

  /** GetRepoStatus: the status of the named service, or an error naming it.
      The status query may clear the controller's remembered pid, and that
      change persists. */
  function GetRepoStatus(app: App, name: string, lookup: ProcessLookup, report: ContainerReport)
    : (r: (App, Result<Status>))
    ensures Get(app.repos, name).Failure? ==> r.0 == app && r.1 == Failure(NotFound(name))
    ensures Get(app.repos, name).Success? ==>
      var o := ApiRepo.GetStatus(Get(app.repos, name).value, lookup, report);
      && r.0 == app.(repos := Push(app.repos, name, Some(o.ctrl)))
      && (r.1.Success? <==> report.Success?)
      && (r.1.Success? ==> r.1.value == o.status)
  {
    match Get(app.repos, name)
    case Failure(e) => (app, Failure(Wrap("failed to get repo '" + name + "'", e)))
    case Success(c) =>
      var o := ApiRepo.GetStatus(c, lookup, report);
      var app1 := app.(repos := Push(app.repos, name, Some(o.ctrl)));
      match o.out
      case Err(e) => (app1, Failure(Wrap("failed to get repo '" + name + "'", e)))
      case Ok => (app1, Success(o.status))
  }

  /** A status the browser reports is always one of the named run states. */
  lemma ReportedStatusIsNamed(app: App, name: string, lookup: ProcessLookup, report: ContainerReport)
    requires GetRepoStatus(app, name, lookup, report).1.Success?
    ensures IsNamedState(GetRepoStatus(app, name, lookup, report).1.value.state)
    ensures GetRepoStatus(app, name, lookup, report).1.value.state != StateUnknown
  {
    GetStatusNeverUnknown(Get(app.repos, name).value, lookup, report);
  }

  /** What Start needs of its inputs for the stored controller. */
  predicate StartReady(app: App, name: string, io: StartInputs) {
    Get(app.repos, name).Success? ==>
      && Dereferenceable(io.mysqlReport) && Dereferenceable(io.report)
      && (LowLatencyWatcherJob(Get(app.repos, name).value.name) !in app.sched.jobs ==>
            0 <= io.jitter < LowLatencyWatcherPeriod)
  }

  /** StartRepo: starts the named service; its failure is wrapped with the
      name. */
  function StartRepo(app: App, name: string, io: StartInputs): (r: (App, Outcome))
    requires StartReady(app, name, io)
    ensures Get(app.repos, name).Failure? ==> r.0 == app && r.1 == Err(NotFound(name))
    ensures Get(app.repos, name).Success? ==>
      var s := ApiRepo.Start(WorldOf(app, Get(app.repos, name).value), io);
      && r.0 == Adopt(app, name, s.world)
      && (r.1.Ok? <==> s.out.Ok?)
    ensures Get(app.repos, name).Success? && r.1.Err? ==> r.0.sched == app.sched && r.0.events == app.events
  {
    match Get(app.repos, name)
    case Failure(e) => (app, Err(Wrap("failed to get repo '" + name + "'", e)))
    case Success(c) =>
      var s := ApiRepo.Start(WorldOf(app, c), io);
      var app1 := Adopt(app, name, s.world);
      match s.out
      case Err(e) => (app1, Err(Wrap("failed to start repo '" + name + "'", e)))
      case Ok => (app1, Ok)
  }

  /** StopRepo: stops the named service; its failure is wrapped with the
      name. */
  function StopRepo(app: App, name: string, report: ContainerReport, stop: Outcome): (r: (App, Outcome))
    requires Get(app.repos, name).Success? ==> Dereferenceable(report)
    ensures Get(app.repos, name).Failure? ==> r.0 == app && r.1 == Err(NotFound(name))
    ensures Get(app.repos, name).Success? ==>
      var s := ApiRepo.Stop(Get(app.repos, name).value, report, stop);
      && r.0 == app.(repos := Push(app.repos, name, Some(s.ctrl)))
      && (r.1.Ok? <==> s.out.Ok?)
    ensures r.1.Ok? ==> Get(r.0.repos, name).value.startedPID == 0
  {
    match Get(app.repos, name)
    case Failure(e) => (app, Err(Wrap("failed to get repo '" + name + "'", e)))
    case Success(c) =>
      var s := ApiRepo.Stop(c, report, stop);
      var app1 := app.(repos := Push(app.repos, name, Some(s.ctrl)));
      match s.out
      case Err(e) => (app1, Err(Wrap("failed to stop repo '" + name + "'", e)))
      case Ok => (app1, Ok)
  }

  /** GetRepoRepoStatusNotificationChannel: the named service's channel. */
  function GetRepoRepoStatusNotificationChannel(app: App, name: string): (r: Result<string>)
    ensures Get(app.repos, name).Failure? ==> r == Failure(NotFound(name))
    ensures Get(app.repos, name).Success? ==>
      r == Success(StatusNotificationChannel(Get(app.repos, name).value.name))
  {
    match Get(app.repos, name)
    case Failure(e) => Failure(Wrap("failed to get repo '" + name + "'", e))
    case Success(c) => Success(StatusNotificationChannel(c.name))
  }

  /** The channel the browser hands out for a listed service is the one the
      listing advertises for it, and the one its refreshes emit on. */
  lemma ChannelMatchesListing(store: RepoStore, order: seq<string>, sched: JobScheduler.Scheduler<Watcher>,
                              events: seq<Event>, name: string)
    requires Enumerates(store, order) && NoNil(store) && WellKeyed(store)
    requires name in Entries(store)
    ensures exists d ::
      && d in ListRepos(store, order)
      && d.name == name
      && GetRepoRepoStatusNotificationChannel(App(store, sched, events), name) == Success(d.statusNotificationChannel)
    ensures GetRepoRepoStatusNotificationChannel(App(store, sched, events), name) == Success(StatusNotificationChannel(name))
  {
    var d := BasicDetailsOf(Entries(store)[name].value);
    assert d in ListRepos(store, order);
  }

  /** RegisterRepoStatusWatcher: ensures the named service's steady watcher;
      the controller's own result is returned unwrapped. */
  function RegisterRepoStatusWatcher(app: App, name: string, now: int, jitter: int): (r: (App, Outcome))
    requires Get(app.repos, name).Success? &&
             StatusWatcherJob(Get(app.repos, name).value.name) !in app.sched.jobs ==>
             0 <= jitter < StatusWatcherPeriod
    ensures Get(app.repos, name).Failure? ==> r.0 == app && r.1 == Err(NotFound(name))
    ensures Get(app.repos, name).Success? ==>
      && r.1 == Ok
      && r.0.repos == app.repos && r.0.events == app.events
      && StatusWatcherJob(Get(app.repos, name).value.name) in r.0.sched.jobs
      && (forall n :: n in app.sched.jobs ==> n in r.0.sched.jobs && r.0.sched.jobs[n] == app.sched.jobs[n])
  {
    match Get(app.repos, name)
    case Failure(e) => (app, Err(Wrap("failed to get repo '" + name + "'", e)))
    case Success(c) =>
      var reg := ApiRepo.RegisterStatusWatcher(WorldOf(app, c), now, jitter);
      (app.(sched := reg.world.sched, events := reg.world.events), reg.out)
  }

  /** A store update that puts a controller named `name` under `name`
      keeps the store's shape. */
  lemma PushOwnNameKeepsShape(store: RepoStore, name: string, c: ApiController)
    requires WellKeyed(store) && NoNil(store) && c.name == name
    ensures WellKeyed(Push(store, name, Some(c))) && NoNil(Push(store, name, Some(c)))
  {
  }

  /** The per-service calls keep each controller stored under its own name,
      so the listing, the channels and the watcher jobs keep agreeing. */
  lemma GetRepoStatusKeepsShape(app: App, name: string, lookup: ProcessLookup, report: ContainerReport)
    requires WellKeyed(app.repos) && NoNil(app.repos)
    ensures WellKeyed(GetRepoStatus(app, name, lookup, report).0.repos)
    ensures NoNil(GetRepoStatus(app, name, lookup, report).0.repos)
  {
    if Get(app.repos, name).Success? {
      var c := Get(app.repos, name).value;
      PushOwnNameKeepsShape(app.repos, name, ApiRepo.GetStatus(c, lookup, report).ctrl);
    }
  }

  lemma StartRepoKeepsShape(app: App, name: string, io: StartInputs)
    requires WellKeyed(app.repos) && NoNil(app.repos) && StartReady(app, name, io)
    ensures WellKeyed(StartRepo(app, name, io).0.repos) && NoNil(StartRepo(app, name, io).0.repos)
  {
    if Get(app.repos, name).Success? {
      var c := Get(app.repos, name).value;
      var s := ApiRepo.Start(WorldOf(app, c), io);
      assert s.world.ctrl.name == c.name;
      PushOwnNameKeepsShape(app.repos, name, s.world.ctrl);
    }
  }

  lemma StopRepoKeepsShape(app: App, name: string, report: ContainerReport, stop: Outcome)
    requires WellKeyed(app.repos) && NoNil(app.repos)
    requires Get(app.repos, name).Success? ==> Dereferenceable(report)
    ensures WellKeyed(StopRepo(app, name, report, stop).0.repos) && NoNil(StopRepo(app, name, report, stop).0.repos)
  {
    if Get(app.repos, name).Success? {
      var c := Get(app.repos, name).value;
      PushOwnNameKeepsShape(app.repos, name, ApiRepo.Stop(c, report, stop).ctrl);
    }
  }

  /** The names a listing shows. */
  function ListedNames(l: seq<BasicDetails>): set<string> {
    set d | d in l :: d.name
  }

  /** A listing of a store whose controllers sit under their own names shows
      exactly the stored names. */
  lemma ListingShowsStoredNames(store: RepoStore, order: seq<string>)
    requires Enumerates(store, order) && NoNil(store) && WellKeyed(store)
    ensures ListedNames(ListRepos(store, order)) == Entries(store).Keys
  {
    var l := ListRepos(store, order);
    forall n | n in Entries(store)
      ensures n in ListedNames(l)
    {
      assert BasicDetailsOf(Entries(store)[n].value) in l;
    }
  }

  /** After startup, the listing names exactly the directories the factory
      accepted. */
  lemma StartupListsAcceptedDirectories(root: string, entries: seq<DirEntry>, order: seq<string>)
    requires Enumerates(RegisterAll(EmptyStore, root, entries), order)
    ensures NoNil(RegisterAll(EmptyStore, root, entries))
    ensures forall n :: n in ListedNames(ListRepos(RegisterAll(EmptyStore, root, entries), order)) <==>
      exists e :: e in entries && Admitted(e) && e.name == n
  {
    var store := RegisterAll(EmptyStore, root, entries);
    RegisterAllKeepsShape(EmptyStore, root, entries);
    RegisterAllKeys(EmptyStore, root, entries);
    ListingShowsStoredNames(store, order);
  }
}

=== FILE: repo_factory.dfy ===
/** The controller factory of repo/repo_controller.go: a directory name is an
    API service when the unanchored pattern `phaas-.*-api` matches it, and
    only then is a controller built. The `phaas-.*-ui` pattern the source
    declares is never consulted. */
module RepoFactory {
  import opened Errors
  import opened Os
  import opened RepoStatus
  import opened Events
  import JobScheduler
  import opened ApiRepo

  const ApiPrefix: string := "phaas-"
  const ApiSuffix: string := "-api"

  /** `w` occurs in `s` at position k. */
  predicate At(s: string, k: int, w: string) {
    0 <= k && k + |w| <= |s| && s[k..k + |w|] == w
  }

  /** No line break in s[a..b]: Go's `.` matches any character but '\n'. */
  predicate NoNewline(s: string, a: int, b: int) {
    forall m :: 0 <= a <= m < b <= |s| ==> s[m] != '\n'
  }

  /** "phaas-" occurs at i, and `.*` can match everything from its end up to j. */
  predicate Open(s: string, i: int, j: int) {
    At(s, i, ApiPrefix) && i + |ApiPrefix| <= j <= |s| && NoNewline(s, i + |ApiPrefix|, j)
  }

  /** The pattern matches with "phaas-" at i and "-api" at j. */
  predicate Witness(s: string, i: int, j: int) {
    Open(s, i, j) && At(s, j, ApiSuffix)
  }

  /** regexp.MatchString("phaas-.*-api", s): some substring of s matches. */
  ghost predicate MatchesApiPattern(s: string) {
    exists i, j :: Witness(s, i, j)
  }

  /** One step of the scan: how the remembered open occurrence `lo` (or none,
      when negative) carries over from position j to j + 1. */
  function NextOpen(s: string, j: int, lo: int): int
    requires 0 <= j < |s|
  {
    if s[j] == '\n' then -1
    else if lo < 0 && At(s, j - 5, ApiPrefix) then j - 5
    else lo
  }

  lemma NextOpenKeepsInvariant(s: string, j: int, lo: int, next: int)
    requires 0 <= j < |s| && next == j + 1
    requires lo >= 0 ==> Open(s, lo, j)
    requires lo < 0 ==> forall i :: !Open(s, i, j)
    ensures NextOpen(s, j, lo) >= 0 ==> Open(s, NextOpen(s, j, lo), next)
    ensures NextOpen(s, j, lo) < 0 ==> forall i :: !Open(s, i, next)
  {
    var lo' := NextOpen(s, j, lo);
    forall i | Open(s, i, next)
      ensures lo' >= 0
    {
      if i + 6 == next {
        assert s[i..i + 6][5] == '-';
      } else {
        assert Open(s, i, j);
      }
    }
  }

  /** A single left-to-right pass: `lo` remembers an occurrence of "phaas-"
      whose `.*` still reaches position j; the scan succeeds at the first
      "-api" met while one is open. */
  function ScanFrom(s: string, j: int, lo: int): (r: bool)
    requires 0 <= j <= |s|
    requires lo >= 0 ==> Open(s, lo, j)
    requires lo < 0 ==> forall i :: !Open(s, i, j)
    requires forall i, k :: k < j ==> !Witness(s, i, k)
    ensures r <==> MatchesApiPattern(s)
    decreases |s| - j
  {
    if lo >= 0 && At(s, j, ApiSuffix) then
      assert Witness(s, lo, j);
      true
    else if j == |s| then
      false
    else
      NextOpenKeepsInvariant(s, j, lo, j + 1);
      ScanFrom(s, j + 1, NextOpen(s, j, lo))
  }

  /** apiRegex.MatchString(name). */
  function IsApiServiceName(name: string): (r: bool)
    ensures r <==> MatchesApiPattern(name)
  {
    ScanFrom(name, 0, -1)
  }

  /** Names that classify as API services; the pattern matches anywhere in
      the name, and the `.*` between the two parts may be empty. */
  lemma ApiNamesAccepted()
    ensures MatchesApiPattern("phaas-billing-api")
    ensures MatchesApiPattern("checkout-phaas-billing-api-v2")
    ensures MatchesApiPattern("phaas--api")
  {
    assert Witness("phaas-billing-api", 0, 13);
    assert Witness("checkout-phaas-billing-api-v2", 9, 22);
    assert Witness("phaas--api", 0, 6);
  }

  /** The '-' ending "phaas-" cannot also begin "-api". */
  lemma SharedSeparatorRejected()
    ensures !MatchesApiPattern("phaas-api")
  {
  }

  /** A ui service is not an API service: the unused ui pattern has no say. */
  lemma UiNameRejected()
    ensures !MatchesApiPattern("phaas-web-ui")
  {
    var s := "phaas-web-ui";
    forall j | 0 <= j <= |s| - |ApiSuffix|
      ensures !At(s, j, ApiSuffix)
    {
      assert s[j..j + 4][0] == s[j] && s[j..j + 4][1] == s[j + 1];
    }
  }

  /** `.` does not match a line break, so a newline between the parts
      prevents the match. */
  lemma NewlineInterruptsMatch()
    ensures !MatchesApiPattern("phaas-x\n-api")
  {
    var s := "phaas-x\n-api";
    forall i | 0 < i <= |s| - |ApiPrefix|
      ensures !At(s, i, ApiPrefix)
    {
      assert s[i..i + 6][0] == s[i];
    }
    forall j | 0 <= j < 8
      ensures !At(s, j, ApiSuffix)
    {
      assert s[j..j + 4][0] == s[j] && s[j..j + 4][1] == s[j + 1];
    }
    assert !NoNewline(s, 6, 8) by {
      assert s[7] == '\n';
    }
  }

  /** BuildRepoController: a fresh controller for an API service, nothing
      (nil) for any other name. */
  function BuildRepoController(path: string, name: string, dir: DirEntry): (r: Option<ApiController>)
    ensures r.Some? <==> MatchesApiPattern(name)
    ensures r.Some? ==> r.value.name == name && r.value.path == path && r.value.dir == dir
    ensures r.Some? ==> r.value.startedPID == 0 && r.value.latestStatus == ZeroStatus
  {
    if IsApiServiceName(name) then Some(ApiController(name, path, dir, 0, ZeroStatus)) else None
  }

  /** A freshly built controller announces its first successful refresh: its
      stored status is the zero Status, which no derived status equals. */
  lemma FirstRefreshAlwaysEmits(path: string, name: string, dir: DirEntry, sched: JobScheduler.Scheduler<Watcher>,
                                events: seq<Event>, lookup: ProcessLookup, report: ContainerReport)
    requires BuildRepoController(path, name, dir).Some?
    requires report.Success?
    ensures var w := World(BuildRepoController(path, name, dir).value, sched, events);
            var r := RefreshStatus(w, lookup, report);
            r.world.events == events + [Event(StatusNotificationChannel(name), [r.world.ctrl.latestStatus])]
  {
    var c := BuildRepoController(path, name, dir).value;
    GetStatusNeverUnknown(c, lookup, report);
  }
}

=== FILE: repo_status.dfy ===
/** The run states a service can be reported in, and the Status record the
    reconciler publishes (repo/repo_controller.go). */
module RepoStatus {

  /** Go's `type State string`: any string, of which four are named. */
  type State = string

  const StateUnknown: State := "unknown"
  const StateStarting: State := "starting"
  const StateRunning: State := "running"
  const StateStopped: State := "stopped"

  /** One row of AllStates: the value and the name the UI bindings use. */
  datatype StateBinding = StateBinding(value: State, tsName: string)

  const AllStates: seq<StateBinding> := [
    StateBinding(StateUnknown, "Unknown"),
    StateBinding(StateStarting, "starting"),
    StateBinding(StateRunning, "running"),
    StateBinding(StateStopped, "stopped")
  ]

  predicate IsNamedState(s: State) {
    s == StateUnknown || s == StateStarting || s == StateRunning || s == StateStopped
  }

  datatype Status = Status(state: State)

  /** The zero value `Status{}`: its State is the empty string. */
  const ZeroStatus: Status := Status("")

  /** The identity record the browser lists. */
  datatype BasicDetails = BasicDetails(name: string, path: string, statusNotificationChannel: string)

  /** How many rows of `bindings` carry the value `s`. */
  function Occurrences(bindings: seq<StateBinding>, s: State): (n: nat)
    ensures n <= |bindings|
    ensures n == 0 <==> forall i :: 0 <= i < |bindings| ==> bindings[i].value != s
  {
    if bindings == [] then 0
    else (if bindings[0].value == s then 1 else 0) + Occurrences(bindings[1..], s)
  }

  /** The four named states are pairwise distinct, and none is the zero state. */
  lemma StatesDistinct()
    ensures StateUnknown != StateStarting && StateUnknown != StateRunning && StateUnknown != StateStopped
    ensures StateStarting != StateRunning && StateStarting != StateStopped
    ensures StateRunning != StateStopped
    ensures !IsNamedState(ZeroStatus.state)
  {
  }

  /** AllStates lists each named state exactly once and nothing else. */
  lemma AllStatesListsEachOnce()
    ensures forall s :: IsNamedState(s) ==> Occurrences(AllStates, s) == 1
    ensures forall i :: 0 <= i < |AllStates| ==> IsNamedState(AllStates[i].value)
  {
    forall s | IsNamedState(s)
      ensures Occurrences(AllStates, s) == 1
    {
      var tail := AllStates[1..];
      assert tail[1..][1..][1..] == [];
      assert Occurrences(tail[1..][1..], s) == (if s == StateStopped then 1 else 0);
      assert Occurrences(tail[1..], s) == (if s == StateRunning || s == StateStopped then 1 else 0);
      assert Occurrences(tail, s) == (if s == StateUnknown then 0 else 1);
    }
  }

  /** Two Status values are equal exactly when their states are: this is the
      comparison the refresh uses to decide whether to notify. */
  lemma StatusEqualityIsStateEquality(a: Status, b: Status)
    ensures a == b <==> a.state == b.state
  {
  }
}

=== FILE: scheduler.dfy ===
/** The process-wide job scheduler (scheduler/scheduler.go): a registry of
    named recurring jobs and the due rule its one-second ticker applies.

    Time is an integer count of nanoseconds, as time.Time and time.Duration
    are. The random start offset AddJob draws with rand.Int63n(period) is a
    parameter `jitter` in [0, period). A tick is a pure step that returns the
    names of the jobs it dispatches; running their callbacks is the caller's
    business. The callback itself is an opaque value of type A. */
module JobScheduler {
  import opened Errors

  /** One second of time.Duration. */
  const Second: int := 1_000_000_000

  datatype Job<A> = Job(lastRun: int, period: int, fn: A)

  datatype Scheduler<A> = Scheduler(jobs: map<string, Job<A>>, running: bool)

  /** scheduler.New(): no jobs, loop not running. */
  function New<A>(): (s: Scheduler<A>)
    ensures s.jobs == map[] && !s.running
  {
    Scheduler(map[], false)
  }

  /** A job is due at `now` when strictly more than its period has elapsed
      since it last ran (time.Since(lastRun) > period): at exactly one period
      it is not yet due. */
  function Due<A>(j: Job<A>, now: int): (r: bool)
    ensures r <==> j.lastRun + j.period < now
    ensures now == j.lastRun + j.period ==> !r
  {
    now - j.lastRun > j.period
  }

  /** Start's guard: a second call while the loop runs returns at once. The
      boolean says whether this call entered the ticker loop. */
  function Start<A>(s: Scheduler<A>): (r: (Scheduler<A>, bool))
    ensures r.1 <==> !s.running
    ensures r.0.running
    ensures r.0.jobs == s.jobs
  {
    if s.running then (s, false) else (s.(running := true), true)
  }

  /** AddJob: refuses a name already registered; otherwise registers the job
      with its first lastRun at now + jitter. rand.Int63n panics unless the
      period is positive, hence the requirement on the fresh-name path. */
  function AddJob<A>(s: Scheduler<A>, name: string, period: int, fn: A, now: int, jitter: int)
    : (r: (Scheduler<A>, Outcome))
    requires name !in s.jobs ==> 0 <= jitter < period
    ensures name in s.jobs ==> r.0 == s && r.1 == Err(Sentinel(JobAlreadyExists))
    ensures name !in s.jobs ==> r.1 == Ok
    ensures name !in s.jobs ==> r.0.jobs.Keys == s.jobs.Keys + {name}
    ensures name !in s.jobs ==>
      && r.0.jobs[name].period == period
      && r.0.jobs[name].fn == fn
      && now <= r.0.jobs[name].lastRun < now + period
    ensures forall n :: n in s.jobs ==> n in r.0.jobs && r.0.jobs[n] == s.jobs[n]
    ensures r.0.running == s.running
  {
    if name in s.jobs then
      (s, Err(Sentinel(JobAlreadyExists)))
    else
      (s.(jobs := s.jobs[name := Job(now + jitter, period, fn)]), Ok)
  }

  /** RemoveJob: deletes the name if present, a no-op otherwise. */
  function RemoveJob<A>(s: Scheduler<A>, name: string): (r: Scheduler<A>)
    ensures r.jobs.Keys == s.jobs.Keys - {name}
    ensures forall n :: n in r.jobs ==> r.jobs[n] == s.jobs[n]
    ensures name !in s.jobs ==> r == s
    ensures r.running == s.running
  {
    s.(jobs := s.jobs - {name})
  }

  /** The jobs a tick at `now` dispatches. */
  function DueNames<A>(s: Scheduler<A>, now: int): (names: set<string>)
    ensures names <= s.jobs.Keys
    ensures forall n :: n in s.jobs ==> (n in names <==> Due(s.jobs[n], now))
  {
    set n | n in s.jobs && Due(s.jobs[n], now)
  }

  /** The state of one job after a tick at `now`. */
  function AfterTick<A>(j: Job<A>, now: int): Job<A> {
    if Due(j, now) then j.(lastRun := now) else j
  }

  /** Starting twice is starting once: the second call finds the loop running,
      returns at once and changes nothing. */
  lemma StartIsIdempotent<A>(s: Scheduler<A>)
    ensures Start(Start(s).0) == (Start(s).0, false)
    ensures Start(s).0 == s.(running := true)
  {
  }

  /** runJobs as a pure step: the dispatched names and the next registry. */
  function Tick<A>(s: Scheduler<A>, now: int): (r: (set<string>, Scheduler<A>))
    ensures r.0 == DueNames(s, now)
    ensures r.1.running == s.running
    ensures r.1.jobs.Keys == s.jobs.Keys
    ensures forall n :: n in s.jobs ==>
      && r.1.jobs[n].period == s.jobs[n].period
      && r.1.jobs[n].fn == s.jobs[n].fn
      && (n in r.0 ==> r.1.jobs[n].lastRun == now)
      && (n !in r.0 ==> r.1.jobs[n] == s.jobs[n])
  {
    (DueNames(s, now), s.(jobs := map n | n in s.jobs :: AfterTick(s.jobs[n], now)))
  }

  /** runJobs as the program writes it: one pass over the registry, updating
      each due job in place. It computes exactly the pure step Tick. */
  method RunJobs<A>(s: Scheduler<A>, now: int) returns (fired: set<string>, next: Scheduler<A>)
    ensures (fired, next) == Tick(s, now)
  {
    var pending := s.jobs.Keys;
    var jobs := s.jobs;
    fired := {};
    while pending != {}
      invariant pending <= s.jobs.Keys
      invariant jobs.Keys == s.jobs.Keys
      invariant forall n :: n in pending ==> jobs[n] == s.jobs[n]
      invariant forall n :: n in s.jobs && n !in pending ==> jobs[n] == AfterTick(s.jobs[n], now)
      invariant fired == set n | n in s.jobs && n !in pending && Due(s.jobs[n], now)
      decreases pending
    {
      var n :| n in pending;
      if Due(jobs[n], now) {
        fired := fired + {n};
        jobs := jobs[n := jobs[n].(lastRun := now)];
      }
      pending := pending - {n};
    }
    next := s.(jobs := jobs);
    assert jobs == Tick(s, now).1.jobs;
    assert fired == DueNames(s, now);
  }

  /** A job just registered at `now` is not due at any tick within one period
      of its registration, and is due at every tick at least two periods
      after it: the code adds the offset to now, so the first run can come up
      to twice the period after registration. */
  lemma FreshJobWaitsOnePeriod<A>(s: Scheduler<A>, name: string, period: int, fn: A, now: int, jitter: int, t: int)
    requires name !in s.jobs && 0 <= jitter < period
    ensures t - now <= period ==> !Due(AddJob(s, name, period, fn, now, jitter).0.jobs[name], t)
    ensures t - now >= 2 * period ==> Due(AddJob(s, name, period, fn, now, jitter).0.jobs[name], t)
  {
  }

  /** Registering a name twice: the second call fails and the job keeps the
      period, callback and lastRun of the first registration. */
  lemma SecondRegistrationKeepsFirst<A>(s: Scheduler<A>, name: string, p1: int, f1: A, t1: int, j1: int,
                                        p2: int, f2: A, t2: int, j2: int)
    requires name !in s.jobs && 0 <= j1 < p1
    ensures var s1 := AddJob(s, name, p1, f1, t1, j1).0;
            var r2 := AddJob(s1, name, p2, f2, t2, j2);
            && r2.1 == Err(Sentinel(JobAlreadyExists))
            && r2.0.jobs[name] == Job(t1 + j1, p1, f1)
  {
  }

  /** A job that fires at `t` does not fire again at any tick within one
      period of `t`, and is dispatched at any tick later than that. */
  lemma NoRefireWithinPeriod<A>(s: Scheduler<A>, t: int, n: string, t': int)
    requires n in Tick(s, t).0
    ensures n in Tick(s, t).1.jobs
    ensures t' - t <= s.jobs[n].period <==> n !in Tick(Tick(s, t).1, t').0
  {
  }

  /** The ticker loop of Start over a run of ticks at the given times: the
      names dispatched by any of them, and the registry after the last. */
  function Run<A>(s: Scheduler<A>, times: seq<int>): (r: (set<string>, Scheduler<A>))
    ensures r.0 <= s.jobs.Keys
    ensures r.1.jobs.Keys == s.jobs.Keys
    ensures r.1.running == s.running
    decreases |times|
  {
    if times == [] then ({}, s)
    else
      var (fired, next) := Tick(s, times[0]);
      var (later, last) := Run(next, times[1..]);
      (fired + later, last)
  }

  /** A removed job is never dispatched again, by any run of later ticks. */
  lemma RemovedJobNeverFires<A>(s: Scheduler<A>, name: string, times: seq<int>)
    ensures name !in Run(RemoveJob(s, name), times).0
    ensures name !in Run(RemoveJob(s, name), times).1.jobs
  {
  }
}

=== FILE: settings.dfy ===
/** The application settings of app/settings.go: which fields a save copies,
    which it keeps, when it announces a new repos location, and how startup
    treats the settings file. JSON encoding and the file system are
    collaborators whose results are parameters. */
module AppSettings {
  import opened Errors
  import opened Os
  import opened Events

  /** One environment override the user configured. */
  datatype EnvParam = EnvParam(key: string, value: string, enabled: bool)

  /** app.Settings without its context. `settingsPath` is unexported, so
      neither JSON decoding nor SaveSettings' argument can set it. */
  datatype Settings = Settings(
    reposDirPath: string,
    dataDirPath: string,
    shellExecutablePath: string,
    shellInitFilePath: string,
    envParams: seq<EnvParam>,
    settingsPath: string)

  /** The fields a JSON document sets: absent keys leave a field as it was,
      which is how encoding/json decodes into an existing struct. */
  datatype SettingsPatch = SettingsPatch(
    reposDirPath: Option<string>,
    dataDirPath: Option<string>,
    shellExecutablePath: Option<string>,
    shellInitFilePath: Option<string>,
    envParams: Option<seq<EnvParam>>)

  const SettingsDirName: string := "phaas-localservices-manager"
  const SettingsFileName: string := "settings.json"

  /** The result of SaveSettings: the settings after the call, its error
      return, and the events it emitted. */
  datatype Saved = Saved(settings: Settings, out: Outcome, emitted: seq<Event>)

  /** SaveSettings copies the repos dir, data dir and overrides from `arg`,
      keeps the shell paths and the settings path, writes the file (`write`
      is its outcome) and announces a changed repos dir only once the write
      succeeded. The fields are updated even when the write fails. */
  function SaveSettings(current: Settings, arg: Settings, write: Outcome): (r: Saved)
    ensures r.settings.reposDirPath == arg.reposDirPath
    ensures r.settings.dataDirPath == arg.dataDirPath
    ensures r.settings.envParams == arg.envParams
    ensures r.settings.shellExecutablePath == current.shellExecutablePath
    ensures r.settings.shellInitFilePath == current.shellInitFilePath
    ensures r.settings.settingsPath == current.settingsPath
    ensures r.out.Ok? <==> write.Ok?
    ensures r.emitted != [] <==> current.reposDirPath != arg.reposDirPath && write.Ok?
    ensures r.emitted != [] ==> r.emitted == [Event(ReposLocationChangedEvent, [])]
  {
    var changed := current.reposDirPath != arg.reposDirPath;
    var updated := current.(reposDirPath := arg.reposDirPath, dataDirPath := arg.dataDirPath, envParams := arg.envParams);
    match write
    case Err(e) => Saved(updated, Err(Wrap("failed to save app settings", e)), [])
    case Ok => Saved(updated, Ok, if changed then [Event(ReposLocationChangedEvent, [])] else [])
  }

  /** GetEnvParamOverrides: the stored overrides. */
  function GetEnvParamOverrides(current: Settings): (r: seq<EnvParam>)
    ensures r == current.envParams
  {
    current.envParams
  }

  /** The overrides a save stores are the ones the runner reads back, whether
      or not the file write succeeded. */
  lemma SavedOverridesAreReadBack(current: Settings, arg: Settings, write: Outcome)
    ensures GetEnvParamOverrides(SaveSettings(current, arg, write).settings) == arg.envParams
  {
  }

  /** Saving the settings one already has announces nothing. */
  lemma SavingSameReposDirIsSilent(current: Settings, arg: Settings, write: Outcome)
    requires arg.reposDirPath == current.reposDirPath
    ensures SaveSettings(current, arg, write).emitted == []
  {
  }

  /** GetSettingsDir: the application's directory under the user config dir. */
  function GetSettingsDir(configDir: Result<string>): (r: Result<string>)
    ensures r.Success? <==> configDir.Success?
    ensures r.Success? ==> r.value == Join(configDir.value, SettingsDirName)
  {
    match configDir
    case Failure(e) => Failure(Wrap("could not get user config dir", e))
    case Success(d) => Success(Join(d, SettingsDirName))
  }

  /** Decoding a JSON document into existing settings. */
  function Apply(current: Settings, p: SettingsPatch): (r: Settings)
    ensures r.settingsPath == current.settingsPath
    ensures p == SettingsPatch(None, None, None, None, None) ==> r == current
    // a field the document sets takes its value; an absent one keeps its own
    ensures p.reposDirPath.Some? ==> r.reposDirPath == p.reposDirPath.value
    ensures p.reposDirPath.None? ==> r.reposDirPath == current.reposDirPath
    ensures p.dataDirPath.Some? ==> r.dataDirPath == p.dataDirPath.value
    ensures p.dataDirPath.None? ==> r.dataDirPath == current.dataDirPath
    ensures p.shellExecutablePath.Some? ==> r.shellExecutablePath == p.shellExecutablePath.value
    ensures p.shellExecutablePath.None? ==> r.shellExecutablePath == current.shellExecutablePath
    ensures p.shellInitFilePath.Some? ==> r.shellInitFilePath == p.shellInitFilePath.value
    ensures p.shellInitFilePath.None? ==> r.shellInitFilePath == current.shellInitFilePath
    ensures p.envParams.Some? ==> r.envParams == p.envParams.value
    ensures p.envParams.None? ==> r.envParams == current.envParams
  {
    Settings(
      if p.reposDirPath.Some? then p.reposDirPath.value else current.reposDirPath,
      if p.dataDirPath.Some? then p.dataDirPath.value else current.dataDirPath,
      if p.shellExecutablePath.Some? then p.shellExecutablePath.value else current.shellExecutablePath,
      if p.shellInitFilePath.Some? then p.shellInitFilePath.value else current.shellInitFilePath,
      if p.envParams.Some? then p.envParams.value else current.envParams,
      current.settingsPath)
  }

  /** Decoding the same document twice is decoding it once. */
  lemma ApplyIsIdempotent(current: Settings, p: SettingsPatch)
    ensures Apply(Apply(current, p), p) == Apply(current, p)
  {
  }

  /** The file-system outcomes Startup sees, in the order it asks for them. */
  datatype StartupInputs = StartupInputs(
    configDir: Result<string>,   // os.UserConfigDir
    fileMissing: bool,           // os.Stat reported ErrNotExist
    mkdirAll: Outcome,           // os.MkdirAll of the settings dir
    create: Outcome,             // os.Create of the settings file
    read: Result<seq<bv8>>,      // os.ReadFile of the settings file
    decoded: Result<SettingsPatch>) // json.Unmarshal of what was read

  /** Creating a missing settings file met no error other than "exists". */
  predicate FileReady(io: StartupInputs) {
    io.fileMissing ==>
      && (io.mkdirAll.Err? ==> Is(io.mkdirAll.error, Exist))
      && (io.create.Err? ==> Is(io.create.error, Exist))
  }

  /** Startup: locates the settings file, creates it when missing, and loads
      it. An empty (or vanished) file leaves the loaded fields as they were. */
  function Startup(current: Settings, io: StartupInputs): (r: (Settings, Outcome))
    ensures io.configDir.Failure? ==> r.0 == current && r.1.Err?
    ensures io.configDir.Success? ==>
      r.0.settingsPath == Join(Join(io.configDir.value, SettingsDirName), SettingsFileName)
    ensures io.configDir.Success? && FileReady(io) && io.read.Success? && io.read.value == [] ==>
      r == (current.(settingsPath := r.0.settingsPath), Ok)
    ensures io.configDir.Success? && FileReady(io) && io.read.Failure? && Is(io.read.error, NotExist) ==>
      r == (current.(settingsPath := r.0.settingsPath), Ok)
    ensures r.1.Ok? <==>
      && io.configDir.Success?
      && FileReady(io)
      && (if io.read.Success? then io.read.value == [] || io.decoded.Success? else Is(io.read.error, NotExist))
    ensures r.1.Ok? && io.read.Success? && io.read.value != [] ==>
      io.decoded.Success? && r.0 == Apply(current.(settingsPath := r.0.settingsPath), io.decoded.value)
    ensures r.0.reposDirPath != current.reposDirPath ==> r.1.Ok? && io.decoded.Success?
  {
    match GetSettingsDir(io.configDir)
    case Failure(e) => (current, Err(Wrap("could not get user settings dir", e)))
    case Success(dir) =>
      var located := current.(settingsPath := Join(dir, SettingsFileName));
      if io.fileMissing && io.mkdirAll.Err? && !Is(io.mkdirAll.error, Exist) then
        (located, Err(Wrap("could not create settings directory", io.mkdirAll.error)))
      else if io.fileMissing && io.create.Err? && !Is(io.create.error, Exist) then
        (located, Err(Wrap("could not create settings file", io.create.error)))
      else
        match io.read
        case Failure(e) =>
          if Is(e, NotExist) then (located, Ok)
          else (located, Err(Wrap("failed to read settings", e)))
        case Success(bytes) =>
          if bytes == [] then (located, Ok)
          else
            match io.decoded
            case Failure(e) => (located, Err(Wrap("failed to unmarshal settings.json", e)))
            case Success(p) => (Apply(located, p), Ok)
  }

  /** An empty settings file keeps the overrides the runner reads, and the
      repos location, as they were. */
  lemma EmptySettingsFileKeepsOverrides(current: Settings, io: StartupInputs)
    requires io.configDir.Success? && FileReady(io)
    requires io.read == Success([])
    ensures Startup(current, io).1 == Ok
    ensures GetEnvParamOverrides(Startup(current, io).0) == GetEnvParamOverrides(current)
    ensures Startup(current, io).0.reposDirPath == current.reposDirPath
  {
  }
}
